=== FILE: README.md ===
# discorddrive in Dafny

A model of the core of *discorddrive*, a Discord bot that exposes one Google
Drive folder tree through slash commands. Two cogs are modelled. Both use the
Drive facade `DriveAPI`.

- The current cog is `DriveAPICommands` in `discord_drive/_discord_drive.py`.
  Its commands are `/cd`, `/pwd`, `/ls`, `/mkdir`, `/upload`, `/download` and
  `/share`.
- The older cog in `discord_drive.py` keeps a bounded per-user command
  history. `/getn` reads that history back.

Drive itself is an oracle: `Drive.Service` says which pages a query yields
and what a create call answers. The older cog's facade `drive.DriveAPI` is
not part of this model, so its calls are the oracle `Legacy.Remote`. All
state is immutable, and every command is a pure function from the old state
to the new state and a reply.

| file | module | what it holds |
|---|---|---|
| wrappers.dfy | `Wrappers` | `Option`, `Result`, `Min` |
| text.dfy | `Text` | Python's `str.index`, `rsplit`, `split` and slicing |
| links.dfy | `Links` | root-URL parsing; the share-link format and its read-back |
| query.dfy | `Query` | the search query of `DriveAPI.search`, as written and corrected |
| drive.dfy | `Drive` | paged search, the folder-name map, `upload`, `make_folder`, `export` |
| cache.dfy | `Cache` | the directory cache `_drive_state` and the folder/file split |
| navigation.dfy | `Navigation` | sessions `_wd_cache`, `/cd`, and the invariants `cd` keeps |
| commands.dfy | `Commands` | start-up, `/pwd`, `/mkdir`, `/upload`; invariants over any command sequence |
| listing.dfy | `Listing` | autocomplete choices, name shortening, `/ls` padding and pages |
| sharing.dfy | `Sharing` | `/download` and `/share`: delivery and link revocation |
| history.dfy | `History` | the 15-entry command deque and `_get_last_commands` |
| legacy.dfy | `Legacy` | the older cog's `cd`, `ls`, `upload`, `mkdir`, `getn` with history |

Paths are `seq<string>`, the parts of a `pathlib.Path`. The root path is
`[ROOT]`, the root folder's display name, or `[]` when that name is empty.
A `defaultdict` read is a lookup with the default value.

## Model

| member | source | states |
|---|---|---|
| Text.Find | discord_drive/_discord_drive.py:305 | `str.index`: `None` (the `ValueError`) exactly when `sub` does not occur; otherwise an occurrence with none before it |
| Text.AfterLast | discord_drive/_drive.py:108 | `rsplit(c, 1)[1]`: fails exactly when `c` is absent; otherwise the suffix right after the last `c`, which contains no `c` |
| Text.BeforeFirst | discord_drive/_drive.py:108 | `split(sep)[0]`: a prefix without `sep` that is either the whole string or stops where `sep` starts, with no occurrence of `sep` in `s` starting earlier, so it is the first one even for a separator that overlaps itself |
| Text.BeforeLast | discord_drive/_discord_drive.py:224 | `rsplit(c, 1)[0]`: the whole string when `c` is absent, else the prefix up to the last `c` |
| Text.Slice | discord_drive/_discord_drive.py:305 | Python slicing from a non-negative start: in-range bounds give the plain slice; a negative stop counts from the end; a crossed pair gives "" |
| Links.RootId | discord_drive/_drive.py:106-108 | An empty root raises; a root without '/' fails at `[1]`; otherwise the id has no '/', no `?resourcekey=`, and is shorter than the URL |
| Links.RootIdIsCutLastSegment | discord_drive/_drive.py:108 | The id is the text after the last '/', either whole or cut exactly where `?resourcekey=` begins |
| Links.LinkFileId | discord_drive/_discord_drive.py:305 | The id slice `[index("file/d/")+7:-19]` raises exactly when the text lacks `file/d/` |
| Links.ShareLink | discord_drive/_drive.py:317 | The link text carries `file/d/` right after the host and ends with the 19-character tail `/view?usp=sharing>)`, the two landmarks the revocation slices between; `Links.LinkRoundTrip` reads the id back out |
| Links.NoEarlierMarker | discord_drive/_drive.py:317 | In a share link whose file name lacks `file/d/`, no `file/d/` starts before the link's own |
| Links.MarkerAfterHost | discord_drive/_drive.py:317 | `index("file/d/")` on such a link lands right after the host text |
| Links.LinkRoundTrip | discord_drive/_drive.py:317 | Round trip: slicing a link made for a name without `file/d/` gives back exactly the file id |
| Query.RefusedIffBothEmpty | discord_drive/_drive.py:193-203 | The refusal `nameScript == parentScript` fires iff name and parent are both empty |
| Query.ClausesDiffer | discord_drive/_drive.py:193-197 | A non-empty name clause never equals a non-empty parent clause |
| Query.QueryAsWritten | discord_drive/_drive.py:193-217 | The query as written raises "Both parameters cannot be empty." iff name and parent are both empty |
| Query.MimeRestriction | discord_drive/_drive.py:205-210 | No mime condition when both kinds are wanted; "not a folder" for files only; "folder" otherwise, including when neither is wanted |
| Query.QueryAsWrittenGluesMime | discord_drive/_drive.py:205-217 | With any mime restriction, the query as written starts `trashed = falseand` and differs from the corrected one; with none, the two agree |
| Query.CorrectedIsConjunction | discord_drive/_drive.py:205-217 | The spaced query text is the ` and `-join of its condition list |
| Query.BuildQuery | discord_drive/_drive.py:193-217 | The corrected query is refused iff both are empty; otherwise it is the ` and `-join, in order, of: not trashed, the mime test, the name test, the parent test, the shortcut exclusion |
| Drive.Collect | discord_drive/_drive.py:222-226 | The result starts with the first page, is exactly the first page when not recursive, and is never longer than all pages |
| Drive.CollectFollowsTokens | discord_drive/_drive.py:222-226 | A recursive search is the concatenation of the pages up to the first one without a next-page token |
| Drive.CollectFromPages | discord_drive/_drive.py:222-226 | Every item a search returns comes from one of the pages |
| Drive.UpdateFolders | discord_drive/_drive.py:166-169 | Recording folders never forgets a name |
| Drive.UpdateFoldersConcat | discord_drive/_drive.py:166-169 | Recording two lists in turn is recording their concatenation |
| Drive.UpdateFoldersLastWins | discord_drive/_drive.py:166-169 | A name maps to the id of the last item with exactly the folder mime type and that name; other names keep their entry or stay absent |
| Drive.Fetch | discord_drive/_drive.py:222-226 | Recording each page's folders before asking for the next yields the collected items and the one-shot update over them |
| Drive.Search | discord_drive/_drive.py:172-226 | A `None` parent trips the validator; refusal iff name and parent are empty; otherwise the collected pages Drive gives for the query text as written (glued mime clause included), with the folder map updated |
| Drive.UploadName | discord_drive/_drive.py:258 | The stored name is a prefix of the file name of length `min(len, 100)` |
| Drive.Upload | discord_drive/_drive.py:253-273 | Fails iff the parent is `None`; otherwise answers what Drive's create call answers for metadata (built by `UploadRequest` and `DefaultParent`) whose name is a prefix of the file name of length `min(len, 100)`, whose type is the content type, and whose one parent is the given folder or, for an empty id, the root's display name |
| Drive.MakeFolder | discord_drive/_drive.py:276-294 | `True` iff Drive creates the folder; then the name maps to the new id, overriding an older folder of that name, and the map gains no other name and changes no other entry; on failure the map is unchanged; a `None` parent trips the validator |
| Drive.Export | discord_drive/_drive.py:298-317 | "File not found." iff the first page of the files-only search (query text as written) is empty; `KeyError` iff the first match carries no size, raised with the folder map the search already updated; a link iff the first match's size >= limit (inclusive), built for the requested name and that match's id; else that file is attached |
| Cache.KindsPartition | discord_drive/_discord_drive.py:202-203 | Folder names plus file names number exactly the items listed |
| Cache.NamesOfKind | discord_drive/_discord_drive.py:202-203 | Each item of the kind sits at the position given by how many of its kind precede it, so both name lists keep the listing's order |
| Navigation.Enter | discord_drive/_discord_drive.py:200-203 | The session moves even if the listing raises; on success only the target's entry changes, to the id plus the folder/file split of its children |
| Navigation.Classify | discord_drive/_discord_drive.py:161-185 | Exactly `""`, `~`, `.`, `..` and `-` are reserved, `""` and `~` both meaning home; any other argument is a child name, itself |
| Navigation.Destination | discord_drive/_discord_drive.py:161-198 | A move goes to the root, the parent, the current directory, or a child of it; only the child search can change the folder map |
| Navigation.Cd | discord_drive/_discord_drive.py:142-206 | `previous` := old `current` on every authenticated call; other users and other paths are untouched; a change makes the planned target current and caches under it the planned id (the hit's id for a child, the cached id otherwise) with a fresh listing of that id |
| Navigation.CdKeepsCachedId | discord_drive/_discord_drive.py:161-183 | `cd ~`, `cd ..` and `cd -` refresh their target under the id already cached for it |
| Navigation.CdHomeAndHere | discord_drive/_discord_drive.py:161-169 | `cd`/`cd ~` go to the root; `cd .` only overwrites `previous` and answers nothing |
| Navigation.CdHereIdempotent | discord_drive/_discord_drive.py:167-169 | A second `cd .` changes nothing |
| Navigation.CdUp | discord_drive/_discord_drive.py:171-179 | `cd ..` goes to the parent iff the user is not at the root path; at the root it answers "You are in the root directory." |
| Navigation.CdBackStays | discord_drive/_discord_drive.py:150-183 | `cd -` leaves both slots equal to the directory the user was in |
| Navigation.CdBackAfterCd | discord_drive/_discord_drive.py:181-183 | `cd -` right after a successful `cd` stays in the directory just entered |
| Navigation.CdChild | discord_drive/_discord_drive.py:185-203 | `cd name` searches folders only (query text as written): nothing found iff "not reachable", and the path stays; otherwise the first hit's name is appended, the move succeeds iff its id is non-empty, and the listing of `folder[0]["id"]` is cached under the new path |
| Navigation.CdKeepsRootPrefixed | discord_drive/_discord_drive.py:161-198 | `cd` keeps the root a prefix of every session's current and previous path |
| Navigation.EnterKeepsResolvable | discord_drive/_discord_drive.py:200-203 | Entering a resolved folder whose ancestors resolve succeeds and keeps every session's paths resolvable |
| Navigation.CdKeepsResolvable | discord_drive/_discord_drive.py:148-203 | If Drive never hands out empty ids, `cd` keeps every session's paths resolvable and never raises |
| Commands.Start | discord_drive/_discord_drive.py:35-44 | Bad root URLs raise; the root path comes from the root's display name; with a service the root listing is cached under the root path |
| Commands.StartInvariants | discord_drive/_discord_drive.py:35-49 | A freshly built cog has every session under the root, and all of them resolvable |
| Commands.Pwd | discord_drive/_discord_drive.py:122-134 | Counts iff the current directory resolves; folders + files = items listed; only the current entry is rewritten |
| Commands.Mkdir | discord_drive/_discord_drive.py:381-409 | Refused without admin rights; created iff Drive creates it; only then are the current directory's folders relisted by the folders-only query as written; its files and id are kept |
| Commands.UploadFile | discord_drive/_discord_drive.py:78-89 | Through `upload_from_discord` (discord_drive/_drive.py:232-251): an unguessable type raises `TypeError` and changes nothing; a zip-typed file that opens as an archive is stored entry by entry; otherwise a content type is needed and Drive stores the file; whatever was stored, the files are relisted by the files-only query as written, and folders and id kept |
| Commands.RunKeepsRootPrefixed | discord_drive/_discord_drive.py:49 | Starting from sessions under the root, any command sequence keeps every session under the root, whatever Drive answers |
| Commands.ApplyKeepsResolvable | discord_drive/_discord_drive.py:78-203 | Each command keeps the cog resolvable; then `cd`, `pwd`, `mkdir`, and an upload with a guessable type and a content type, never raise |
| Commands.RunKeepsResolvable | discord_drive/_discord_drive.py:142-206 | Any command sequence keeps the cog resolvable, as long as Drive never hands out empty ids |
| Listing.ChoicesAfterCd | discord_drive/_discord_drive.py:139-140 | After a successful `cd`, `FolderChoices` are the shortcuts plus the new directory's folder-like children, in order, and `FileChoices` the rest |
| Listing.ChoicesAfterPwd | discord_drive/_discord_drive.py:268-269 | After `/pwd`, `FileChoices` (`_get_files`) offers exactly the file-like children it counted, in order, and `FolderChoices` the shortcuts plus the folder-like ones |
| Listing.StripExtension | discord_drive/_discord_drive.py:224 | Drops exactly the last `.`-suffix; a name without '.' is kept |
| Listing.ShortenName | discord_drive/_discord_drive.py:223-226 | Below 43 characters the (stripped) name is kept; otherwise its first 41 followed by "..."; never over 44 |
| Listing.ShortenIdempotent | discord_drive/_discord_drive.py:223-226 | Shortening a folder name twice gives the same as once |
| Listing.Pad | discord_drive/_discord_drive.py:245 | Adds between 1 and 10 blanks; the length becomes the next multiple of 10 strictly above the original, which stays a prefix |
| Listing.Chunks | discord_drive/_discord_drive.py:257-262 | The slices of at most ten rows concatenate back to the rows |
| Listing.FullChunks | discord_drive/_discord_drive.py:249-262 | A multiple of ten rows gives length/10 full slices |
| Listing.LsPages | discord_drive/_discord_drive.py:235-262 | Pages exist iff the current directory resolves and every child that is not folder-like has a size (otherwise the Size column raises `KeyError`); then `n/10 + 1` pages of exactly ten lines whose concatenation is the padded name column |
| Listing.Ls | discord_drive/_discord_drive.py:237-241 | Whenever the current directory resolves, `/ls` records the listing's folders in the folder map, even when the Size column then raises; otherwise the cog is untouched |
| Listing.LsRowPlacement | discord_drive/_discord_drive.py:240-262 | When every child file has a size, the `i`-th child's `Row` (folder icon and unstripped name, or file icon and stripped name) is line `i % 10` of page `i / 10` |
| Sharing.RevokedAsWritten | discord_drive/_discord_drive.py:300-305 | As written, any text is sliced after a finite timeout; the slice raises iff the text lacks `file/d/` |
| Sharing.NotFoundRaisesAfterTimeout | discord_drive/_discord_drive.py:300-305 | With a finite timeout, a missing file's "File not found." raises `ValueError` instead of revoking |
| Sharing.RevokedAgreesOnFoundFiles | discord_drive/_discord_drive.py:300-305 | For a found file whose name lacks `file/d/`, slicing the value `export` returns (`AsReturned`: text for a link, a `File` for an attachment) revokes exactly what the corrected rule `Revoked` does: the shared id after a finite timeout, nothing otherwise |
| Sharing.RaisesOnlyWhenNotFound | discord_drive/_discord_drive.py:300-305 | Over every outcome of `export`, the slice as written raises exactly for "File not found." after a finite timeout; a share link yields the id it was granted for |
| Sharing.Deliver | discord_drive/_discord_drive.py:272-311 | A timeout that is not a number raises before the search and changes nothing. Otherwise, once the search runs, its folders are recorded even if it then raises. A nan or -inf timeout raises once `export` has answered. The file or text is handed over iff authenticated, the timeout is a number or inf, the current id is set and the first match (if any) has a size; not found iff no match; link iff size >= limit; after a finite timeout the as-written slice raises for a missing file and otherwise revokes the id read out of the link, which is the match's id when the name lacks `file/d/` |
| Sharing.MissingFileRaises | discord_drive/_discord_drive.py:299-305 | `/download` or `/share` of a missing file answers "File not found." With a finite timeout it then raises `ValueError`. With inf it stops there. With nan or -inf it raises before answering |
| Sharing.DeliverRevokesLinkedId | discord_drive/_discord_drive.py:305 | For a found file whose name lacks `file/d/`, delivery as written revokes what the corrected rule `Revoked` would |
| History.Save | discord_drive.py:44-48 | The new command is last; a history within capacity grows by one up to fifteen |
| History.SaveKeepsNewest | discord_drive.py:44-48 | A save keeps the newest `min(len + 1, 15)` commands of history-plus-command, in order |
| History.SaveAllKeepsNewest | discord_drive.py:44-48 | Any number of saves leave exactly the newest `min(len, 15)` of everything saved, in order |
| History.Pop | discord_drive.py:52-53 | Raises iff the history is empty; otherwise the rest plus the popped command is the history |
| History.GetLastN | discord_drive.py:55-64 | Raises iff `n` exceeds the length; otherwise pops the newest `max(n, 0)` commands, newest first, and leaves the older ones |
| History.PoppedRestores | discord_drive.py:55-64 | What is left plus the popped commands put back in age order is the original history |
| Legacy.Move | discord_drive.py:154-166 | A move sets the current path, records `cd`, and caches the folders-only listing under the new path; other users are untouched |
| Legacy.LegacyCd | discord_drive.py:106-168 | Same slot overwrite as the current cog; the command is recorded only on a move, and only a move refreshes the cache. `.` answers unchanged and `..` at the root answers "in the root directory", both before the save; `""`/`~` moves to the root, `..` elsewhere to the parent and `-` to where the user already is, each keeping that path's cached id; a child with no search hit is "not reachable", otherwise the user moves to the current path plus the first hit's name, whose id is cached there |
| Legacy.LegacyCdOthersUntouched | discord_drive.py:106-168 | The older `cd` leaves every other user's session and history alone |
| Legacy.LegacyCdBackStays | discord_drive.py:116-140 | The older `cd -` also stays put, yet records a move |
| Legacy.LegacyLs | discord_drive.py:170-192 | Once authenticated, `ls` is always recorded and changes nothing else |
| Legacy.LegacyUpload | discord_drive.py:75-96 | `upload` is recorded iff the upload answered with non-empty text |
| Legacy.LegacyMkdir | discord_drive.py:210-238 | `mkdir` is always recorded, but the current folders are relisted only when creation succeeded |
| Legacy.LegacyGetn | discord_drive.py:247-272 | Asking for more than the history holds changes nothing; otherwise the newest `n` are returned newest first and removed, then `getn` is recorded |
| Legacy.CdKeepsBounded | discord_drive.py:156-162 | No `cd` lets any history exceed fifteen commands |
| Legacy.LsUploadKeepBounded | discord_drive.py:186-192 | Neither `ls` nor `upload` lets any history exceed fifteen commands |
| Legacy.MkdirKeepsBounded | discord_drive.py:232-238 | `mkdir` lets no history exceed fifteen commands |
| Legacy.GetnKeepsBounded | discord_drive.py:256-272 | `getn` lets no history exceed fifteen commands |

## Left out

- Discord plumbing is not modelled: embeds, responses, `defer`, `Paginator` rendering, DMs, the `basic_autocomplete` filtering and `cog_command_error`. A command's answer is a `Reply` value.
- `_get_user_color` is not modelled, because it averages image pixels with numpy and cv2.
- `convert_size` and the text of the Size column of `/ls` are not modelled, because they use floating-point `log`, `pow` and `round`. The `KeyError` that `int(item['size'])` raises for a file without a size is modelled.
- The Kind column of `/ls` is not modelled, because it is a `mimetypes.guess_extension` lookup.
- OAuth is not modelled: `generate_flow`, `authenticate`, `token.json` and `credentials.json`. `create_service` is reduced to two inputs of `Commands.Start`: whether a service exists, and what `files().get` returned.
- `authenticate` re-listing the root is left out. Start-up covers the same listing.
- `upload_from_discord`'s archive branch is modelled only as the decision to take it and the relisting afterwards. Which entries are extracted and stored, the skipped sub-folders and the reply text depend on the archive's contents. Temporary directories and `empty_dir` are file-system effects.
- `HttpError` on the listing calls is not modelled: the Drive oracle always answers a query. Create calls do model it, answering `None`.
- The export download branch's text "An error occured retrieving this file." is not modelled, because its cause is an `HttpError`.
- `_input_validator` is modelled only for `None` arguments. Its type checks are Python reflection.
- Timestamps are not modelled, nor the wait before revoking or the expiry time. The timeout text is taken as already classified by `float`: not a number, nan or -inf, another number, or inf. Python's float parsing itself is not modelled, and neither is the difference between the `ValueError` of nan and the `OverflowError` of -inf. Both are the reply `TimeoutRaised`.
- Concurrency is not modelled. The class-level dictionaries are shared unlocked between async tasks; the model runs commands one at a time.
- Path names containing '/' are not modelled, nor pathlib's collapsing of "" and "." segments. A path is a sequence of single-segment parts.
- `defaultdict` reads are modelled without insert-on-read. The inserted default is never observable through later reads.
- The older cog's facade, `drive.DriveAPI`, is not part of this model. Its search, folder listing, folder creation and upload are the oracle `Legacy.Remote`.
- The older cog's `ls` text and its `export` command are left out. `export` neither changes state nor records history.
- `LegacyUpload` takes the upload's answer from the oracle for the file name alone. The parent, the current directory's name, is not passed to it.
- `cd -` is not modelled as the conventional swap with the previous directory. The code copies back the slot it has just overwritten, so `cd -` never moves. The model follows the code; see `Navigation.CdBackStays`.
- `revoke_sharing` is modelled only as the id it is called with (`Sharing.RevokedAsWritten`). The permission deletion is a Drive call.
- `Drive.UpdateFolders`: its own contract only says that names are never forgotten. What the map holds afterwards is stated by `Drive.UpdateFoldersLastWins`.
- Commands.ApplyKeepsResolvable: an upload whose type `mimetypes` cannot guess raises `TypeError`, so "never raises" is promised only for uploads with a guessable type and a content type.
- `Listing.ShortenIdempotent` is stated for folder names only. For files the stripping applies again on the second pass.

## Findings

The commands are modelled with the code as written: every search sends the glued query text, and `/download` and `/share` slice whatever text `export` returns. The corrected members stand beside them, with the intended property proved.

| source | as written | input that shows it | evidently intended | confidence | as-written member | corrected member |
|---|---|---|---|---|---|---|
| discord_drive/_drive.py:208-217 | The mime clause is `"and mimeType..."` with no leading space, glued straight onto `trashed = false` | `search(parent="X", files=False)` sends `trashed = falseand mimeType='application/vnd.google-apps.folder' and 'X' in parents and ...` | `" and mimeType..."`, spaced like the name and parent clauses | not executed | Query.QueryAsWrittenGluesMime | Query.BuildQuery |
| discord_drive/_discord_drive.py:300-305 | Every `str` that `export` returns is treated as a share link and sliced after the timeout, including "File not found." | `/download name:missing` with the default 60-second timeout: after the sleep, `"File not found.".index("file/d/")` raises `ValueError` | Revoke only when a share link was produced, using its file id | not executed | Sharing.NotFoundRaisesAfterTimeout | Sharing.Revoked |

=== FILE: cache.dfy ===
/** The directory cache `_drive_state` of the cog
    (discord_drive/_discord_drive.py): virtual path -> {id, folders, files},
    and the folder/file split of a listing that fills it. */
module Cache {
  import opened Wrappers
  import opened Query
  import opened Drive

  /** A virtual path as the parts of a `pathlib.Path`. */
  type Path = seq<string>

  /** `pathlib.Path(p).parent` for a path of single-segment parts. */
  function Parent(p: Path): (r: Path)
    ensures |p| > 0 ==> r == p[..|p| - 1]
    ensures |p| == 0 ==> r == p
  {
    if |p| == 0 then p else p[..|p| - 1]
  }

  /** `pathlib.Path(name)` for a folder name without '/': the empty name gives
      the empty path `Path(".")`. */
  function PathOf(name: string): (r: Path)
    ensures |r| <= 1
  {
    if name == "" then [] else [name]
  }

  /** One cached directory. `id` is `None` until something resolves the path. */
  datatype Entry = Entry(id: Option<string>, folders: seq<string>, files: seq<string>)

  type Dir = map<Path, Entry>

  /** The `defaultdict` default for a path nobody has resolved yet. */
  const Blank := Entry(None, [], [])

  /** Reading `_drive_state[p]`: the stored entry, or the default one. */
  function Lookup(cache: Dir, p: Path): Entry {
    if p in cache then cache[p] else Blank
  }

  /** The cog's folder test: the mime type STARTS WITH the folder type. */
  predicate IsFolderLike(item: Item) {
    FolderType <= item.mimeType
  }

  /** How many of `items` are folder-like (`folders`) or not (`!folders`).
      A counting helper: `KindsPartition` and `NamesOfKind` state what the
      count means. */
  function CountKind(items: seq<Item>, folders: bool): (n: nat)
    ensures n <= |items|
  {
    if |items| == 0 then 0
    else CountKind(items[..|items| - 1], folders) + (if IsFolderLike(items[|items| - 1]) == folders then 1 else 0)
  }

  /** Every item is of exactly one kind. */
  lemma {:induction false} KindsPartition(items: seq<Item>)
    ensures CountKind(items, true) + CountKind(items, false) == |items|
  {
    if |items| > 0 {
      KindsPartition(items[..|items| - 1]);
    }
  }

  /** The two list comprehensions the cog runs over a listing: names of the
      folder-like items (`folders`), or names of the rest (`!folders`). Each
      item of the kind lands at the position given by how many of its kind
      precede it, so the list keeps the listing's order. */
  function NamesOfKind(items: seq<Item>, folders: bool): (r: seq<string>)
    ensures |r| == CountKind(items, folders)
    ensures forall i :: 0 <= i < |items| && IsFolderLike(items[i]) == folders ==>
      CountKind(items[..i], folders) < |r| && r[CountKind(items[..i], folders)] == items[i].name
  {
    if |items| == 0 then []
    else
      var init := items[..|items| - 1];
      var last := items[|items| - 1];
      var r := NamesOfKind(init, folders);
      var res := if IsFolderLike(last) == folders then r + [last.name] else r;
      assert forall i :: 0 <= i < |items| && IsFolderLike(items[i]) == folders ==>
        CountKind(items[..i], folders) < |res| && res[CountKind(items[..i], folders)] == items[i].name
      by {
        forall i | 0 <= i < |items| && IsFolderLike(items[i]) == folders
          ensures CountKind(items[..i], folders) < |res| && res[CountKind(items[..i], folders)] == items[i].name
        {
          if i < |init| {
            assert items[..i] == init[..i] && items[i] == init[i];
          } else {
            assert items[..i] == init;
          }
        }
      }
      res
  }

  /** `[item["name"] for item in items]`. */
  function Names(items: seq<Item>): (r: seq<string>)
    ensures |r| == |items|
    ensures forall i :: 0 <= i < |items| ==> r[i] == items[i].name
  {
    if |items| == 0 then [] else [items[0].name] + Names(items[1..])
  }

  /** The entry written after a successful refresh of folder `id`. */
  function Fresh(id: string, items: seq<Item>): Entry {
    Entry(Some(id), NamesOfKind(items, true), NamesOfKind(items, false))
  }

  /** The path's entry carries a usable (non-empty) folder id. */
  predicate Resolved(cache: Dir, p: Path) {
    Lookup(cache, p).id.Some? && Lookup(cache, p).id.value != ""
  }

  /** Writing a resolved entry never unresolves a path. */
  lemma ResolvedGrows(cache: Dir, target: Path, e: Entry, p: Path)
    requires e.id.Some? && e.id.value != ""
    requires Resolved(cache, p)
    ensures Resolved(cache[target := e], p)
  {
  }
}

=== FILE: commands.dfy ===
/** The cog's other state-changing commands (discord_drive/_discord_drive.py):
    start-up, `pwd`, `mkdir` and `upload`, each of which refreshes the
    directory cache, and the invariants every sequence of commands keeps. */
module Commands {
  import opened Wrappers
  import opened Text
  import opened Query
  import opened Links
  import opened Drive
  import opened Cache
  import opened Navigation

  /** The listing `upload` refreshes with: files only, every page. */
  function FilesIn(svc: Service, id: string): seq<Item>
    requires id != ""
  {
    Collect(svc.pages(QueryAsWritten("", id, true, false).value, 100), true)
  }

  /** The listing `mkdir` refreshes with: folders only, every page. */
  function FoldersIn(svc: Service, id: string): seq<Item>
    requires id != ""
  {
    Collect(svc.pages(QueryAsWritten("", id, false, true).value, 100), true)
  }

  /** Why constructing the cog raises. */
  datatype StartError =
    | BadRoot(rootError: RootError)   // `DriveAPI.__init__` on a malformed URL
    | StartRaised(error: ApiError)    // the initial root listing

  /** Constructing the cog: parse the root URL; when a service could be built
      (`service`), `files().get` on the parsed id may rename the root
      (`folder`, `None` for an `HttpError`); then the root path is fixed and,
      with a service, the root listing is cached. */
  function Start(url: string, service: bool, folder: Option<Item>, svc: Service): (r: Result<Cog, StartError>)
    ensures RootId(url).Failure? ==> r == Failure(BadRoot(RootId(url).error))
    ensures r.Success? ==> r.value.sessions == map[] && r.value.authenticated == service
    ensures r.Success? ==> r.value.root == PathOf(r.value.rootName)
    ensures r.Success? && service && folder.Some? ==>
      r.value.rootName == folder.value.name && r.value.rootId == folder.value.id
    ensures r.Success? && !(service && folder.Some?) ==> r.value.rootName == "" && r.value.rootId == RootId(url).value
    ensures r.Success? && service ==> (r.value.rootId != "" &&
      Lookup(r.value.cache, r.value.root) == Fresh(r.value.rootId, Children(svc, r.value.rootId)))
    ensures r.Success? && !service ==> r.value.cache == map[]
    ensures RootId(url).Success? && service ==> (r.Failure? <==> (if folder.Some? then folder.value.id else RootId(url).value) == "")
  {
    match RootId(url)
    case Failure(e) => Failure(BadRoot(e))
    case Success(parsed) =>
      var name := if service && folder.Some? then folder.value.name else "";
      var id := if service && folder.Some? then folder.value.id else parsed;
      var known: map<string, string> := if service && folder.Some? then map[name := id] else map[];
      var root := PathOf(name);
      if !service then Success(Cog(root, name, id, false, map[], map[], known))
      else match Search(svc, known, "", Some(id), 100, true, true, true)
        case Failure(e) => Failure(StartRaised(e))
        case Success(found) => Success(Cog(root, name, id, true, map[], map[root := Fresh(id, found.items)], found.known))
  }

  /** A freshly constructed cog satisfies both invariants. */
  lemma StartInvariants(url: string, service: bool, folder: Option<Item>, svc: Service)
    requires Start(url, service, folder, svc).Success?
    ensures RootPrefixed(Start(url, service, folder, svc).value)
    ensures Resolvable(Start(url, service, folder, svc).value)
  {
  }

  /** `/pwd`: relist the current directory, report how many folders and files
      it holds, and store the listing under the current path. */
  function Pwd(cog: Cog, svc: Service, user: UserId): (r: (Cog, Reply))
    ensures !cog.authenticated ==> r == (cog, NotAuthenticated)
    ensures r.0.sessions == cog.sessions && r.0.root == cog.root && r.0.authenticated == cog.authenticated
    ensures cog.authenticated ==> (r.1.Counted? <==> Resolved(cog.cache, Current(cog, user)))
    ensures cog.authenticated ==> (r.1.Raised? <==> !Resolved(cog.cache, Current(cog, user)))
    ensures r.1.Counted? ==>
      var id := Lookup(cog.cache, Current(cog, user)).id.value;
      && r.1.folders == CountKind(Children(svc, id), true)
      && r.1.files == CountKind(Children(svc, id), false)
      && r.1.folders + r.1.files == |Children(svc, id)|
      && Lookup(r.0.cache, Current(cog, user)) == Fresh(id, Children(svc, id))
    ensures !r.1.Counted? ==> r.0.cache == cog.cache
    ensures forall p :: p != Current(cog, user) ==> Lookup(r.0.cache, p) == Lookup(cog.cache, p)
  {
    if !cog.authenticated then (cog, NotAuthenticated)
    else
      var here := Current(cog, user);
      var id := Lookup(cog.cache, here).id;
      match Search(svc, cog.known, "", id, 100, true, true, true)
      case Failure(e) => (cog, Raised(e))
      case Success(found) =>
        var e := Fresh(id.value, found.items);
        KindsPartition(found.items);
        (cog.(cache := cog.cache[here := e], known := found.known), Counted(|e.folders|, |e.files|))
  }

  /** `/mkdir name` (administrators only): create the folder under the
      current directory and, only when Drive confirms, relist the current
      directory's folders; its files and id stay as cached. */
  function Mkdir(cog: Cog, svc: Service, user: UserId, admin: bool, folderName: string): (r: (Cog, Reply))
    ensures !admin ==> r == (cog, MissingPermissions)
    ensures admin && !cog.authenticated ==> r == (cog, NotAuthenticated)
    ensures r.0.sessions == cog.sessions && r.0.root == cog.root && r.0.authenticated == cog.authenticated
    ensures r.1.FolderCreated? <==> (admin && cog.authenticated && Resolved(cog.cache, Current(cog, user))
      && svc.createFolder(FolderRequest(folderName, Lookup(cog.cache, Current(cog, user)).id.value, cog.rootName)).Some?)
    ensures r.1.FolderCreated? ==>
      var e := Lookup(cog.cache, Current(cog, user));
      Lookup(r.0.cache, Current(cog, user)) == e.(folders := Names(FoldersIn(svc, e.id.value)))
    ensures !r.1.FolderCreated? ==> r.0.cache == cog.cache
    ensures forall p :: p != Current(cog, user) ==> Lookup(r.0.cache, p) == Lookup(cog.cache, p)
  {
    if !admin then (cog, MissingPermissions)
    else if !cog.authenticated then (cog, NotAuthenticated)
    else
      var here := Current(cog, user);
      var parentId := Lookup(cog.cache, here).id;
      match MakeFolder(svc, cog.known, folderName, parentId, cog.rootName)
      case Failure(e) => (cog, Raised(e))
      case Success(made) =>
        if !made.ok then (cog.(known := made.known), FolderNotCreated)
        else match Search(svc, made.known, "", parentId, 100, false, true, true)
          case Failure(e) => (cog.(known := made.known), Raised(e))
          case Success(found) =>
            var e := Lookup(cog.cache, here).(folders := Names(found.items));
            (cog.(cache := cog.cache[here := e], known := found.known), FolderCreated)
  }

  /** `upload_from_discord` takes the archive path when the guessed type
      mentions "zip" and the file opens as a zip archive; a type without
      "zip", or a `BadZipFile`, sends it as a single file. */
  predicate IsArchive(guessed: string, opensAsZip: bool) {
    Contains(guessed, "zip") && opensAsZip
  }

  /** `/upload`: `guessed` is the type `mimetypes.guess_type` gives the saved
      attachment (`None` when it cannot tell) and `opensAsZip` whether
      `ZipFile` can open it. A missing folder id trips the argument
      validator; an unguessable type raises `TypeError` before anything is
      stored; an archive has its entries stored (which ones is not modelled);
      a single file needs a content type and is stored in the current
      directory. Whatever was stored, the directory's files are then relisted
      while its folders and id stay as cached. */
  function UploadFile(cog: Cog, svc: Service, user: UserId, fileName: string, contentType: Option<string>,
                      guessed: Option<string>, opensAsZip: bool)
    : (r: (Cog, Reply))
    ensures !cog.authenticated ==> r == (cog, NotAuthenticated)
    ensures r.0.sessions == cog.sessions && r.0.root == cog.root && r.0.authenticated == cog.authenticated
    ensures cog.authenticated && Lookup(cog.cache, Current(cog, user)).id.Some? && guessed.None? ==>
      r == (cog, Raised(UnknownType))
    ensures r.1.UploadedArchive? <==> (cog.authenticated && Resolved(cog.cache, Current(cog, user))
      && guessed.Some? && IsArchive(guessed.value, opensAsZip))
    ensures r.1.Uploaded? <==> (cog.authenticated && Resolved(cog.cache, Current(cog, user))
      && guessed.Some? && !IsArchive(guessed.value, opensAsZip) && contentType.Some?)
    ensures r.1.Uploaded? ==>
      var e := Lookup(cog.cache, Current(cog, user));
      r.1.stored == svc.createFile(UploadRequest(fileName, contentType.value, e.id.value, cog.rootName))
    ensures r.1.Uploaded? || r.1.UploadedArchive? ==>
      var e := Lookup(cog.cache, Current(cog, user));
      Lookup(r.0.cache, Current(cog, user)) == e.(files := Names(FilesIn(svc, e.id.value)))
    ensures !(r.1.Uploaded? || r.1.UploadedArchive?) ==> r.0.cache == cog.cache
    ensures forall p :: p != Current(cog, user) ==> Lookup(r.0.cache, p) == Lookup(cog.cache, p)
  {
    if !cog.authenticated then (cog, NotAuthenticated)
    else
      var here := Current(cog, user);
      var id := Lookup(cog.cache, here).id;
      if id.None? then (cog, Raised(NoneArgument))
      else if guessed.None? then (cog, Raised(UnknownType))
      else
        var archive := IsArchive(guessed.value, opensAsZip);
        if !archive && contentType.None? then (cog, Raised(NoneArgument))
        else
          match Search(svc, cog.known, "", id, 100, true, false, true)
          case Failure(e) => (cog, Raised(e))
          case Success(found) =>
            var e := Lookup(cog.cache, here).(files := Names(found.items));
            var c := cog.(cache := cog.cache[here := e], known := found.known);
            if archive then (c, UploadedArchive)
            else (c, Uploaded(svc.createFile(UploadRequest(fileName, contentType.value, id.value, cog.rootName))))
  }

  /** One command of the cog, by who issued it and with what arguments. */
  datatype Step =
    | CdStep(user: UserId, path: string)
    | PwdStep(user: UserId)
    | MkdirStep(user: UserId, admin: bool, folderName: string)
    | UploadStep(user: UserId, fileName: string, contentType: Option<string>, guessed: Option<string>, opensAsZip: bool)

  function Apply(cog: Cog, svc: Service, s: Step): (r: Cog)
    ensures r.root == cog.root && r.authenticated == cog.authenticated
  {
    match s
    case CdStep(u, p) => Cd(cog, svc, u, p).0
    case PwdStep(u) => Pwd(cog, svc, u).0
    case MkdirStep(u, a, n) => Mkdir(cog, svc, u, a, n).0
    case UploadStep(u, n, t, g, z) => UploadFile(cog, svc, u, n, t, g, z).0
  }

  /** Commands run one after another. Its own contract only keeps the root
      and the authentication flag; what a run preserves is stated by
      `RunKeepsResolvable` and `RunKeepsRootPrefixed`. */
  function Run(cog: Cog, svc: Service, steps: seq<Step>): (r: Cog)
    decreases |steps|
    ensures r.root == cog.root && r.authenticated == cog.authenticated
  {
    if |steps| == 0 then cog else Run(Apply(cog, svc, steps[0]), svc, steps[1..])
  }

  /** Writing an entry whose id is resolved and unchanged, or only moving
      the user's session, keeps the invariant: the cache part. */
  lemma ResolvableSameSessions(cog: Cog, c: Cog)
    requires cog.authenticated && Resolvable(cog)
    requires c.root == cog.root && c.authenticated && c.sessions == cog.sessions
    requires forall p :: Resolved(cog.cache, p) ==> Resolved(c.cache, p)
    ensures Resolvable(c)
  {
    forall u | u in c.sessions
      ensures Reachable(c, c.sessions[u].current) && Reachable(c, c.sessions[u].previous)
    {
      assert Reachable(cog, cog.sessions[u].current) && Reachable(cog, cog.sessions[u].previous);
    }
  }

  /** Every command keeps every session under the root. */
  lemma ApplyKeepsRootPrefixed(cog: Cog, svc: Service, s: Step)
    requires RootPrefixed(cog)
    ensures RootPrefixed(Apply(cog, svc, s))
  {
    if s.CdStep? {
      CdKeepsRootPrefixed(cog, svc, s.user, s.path);
    }
  }

  /** From start-up on, whatever commands run and whatever Drive answers,
      every session's current and previous directory stays under the root. */
  lemma {:induction false} RunKeepsRootPrefixed(cog: Cog, svc: Service, steps: seq<Step>)
    requires RootPrefixed(cog)
    ensures RootPrefixed(Run(cog, svc, steps))
    decreases |steps|
  {
    if |steps| > 0 {
      ApplyKeepsRootPrefixed(cog, svc, steps[0]);
      RunKeepsRootPrefixed(Apply(cog, svc, steps[0]), svc, steps[1..]);
    }
  }

  /** Every command keeps the cog resolvable; `cd`, `pwd` and `mkdir` then
      never raise, and neither does an upload whose type `mimetypes` can guess
      and that carries a content type. */
  lemma ApplyKeepsResolvable(cog: Cog, svc: Service, s: Step)
    requires Resolvable(cog) && NonEmptyIds(svc)
    ensures Resolvable(Apply(cog, svc, s))
    ensures s.CdStep? ==> !Cd(cog, svc, s.user, s.path).1.Raised?
    ensures s.PwdStep? ==> !Pwd(cog, svc, s.user).1.Raised?
    ensures s.MkdirStep? ==> !Mkdir(cog, svc, s.user, s.admin, s.folderName).1.Raised?
    ensures s.UploadStep? && s.contentType.Some? && s.guessed.Some? ==>
      !UploadFile(cog, svc, s.user, s.fileName, s.contentType, s.guessed, s.opensAsZip).1.Raised?
  {
    match s
    case CdStep(u, p) =>
      CdKeepsResolvable(cog, svc, u, p);
    case PwdStep(u) =>
      if cog.authenticated {
        SessionReachable(cog, u);
        OwnAncestors(cog, Current(cog, u));
        var r := Pwd(cog, svc, u).0;
        ResolvableSameSessions(cog, r);
      }
    case MkdirStep(u, a, n) =>
      if a && cog.authenticated {
        SessionReachable(cog, u);
        OwnAncestors(cog, Current(cog, u));
        var r := Mkdir(cog, svc, u, a, n).0;
        ResolvableSameSessions(cog, r);
      }
    case UploadStep(u, n, t, g, z) =>
      if cog.authenticated {
        SessionReachable(cog, u);
        OwnAncestors(cog, Current(cog, u));
        var r := UploadFile(cog, svc, u, n, t, g, z).0;
        ResolvableSameSessions(cog, r);
      }
  }

  /** From start-up on, as long as Drive hands out non-empty ids, the cog
      stays resolvable through any sequence of commands. */
  lemma {:induction false} RunKeepsResolvable(cog: Cog, svc: Service, steps: seq<Step>)
    requires Resolvable(cog) && NonEmptyIds(svc)
    ensures Resolvable(Run(cog, svc, steps))
    decreases |steps|
  {
    if |steps| > 0 {
      ApplyKeepsResolvable(cog, svc, steps[0]);
      RunKeepsResolvable(Apply(cog, svc, steps[0]), svc, steps[1..]);
    }
  }
}

=== FILE: drive.dfy ===
/** The pure part of the Drive facade `DriveAPI` (discord_drive/_drive.py):
    paged search, the folder-name map it keeps, and the request and decision
    logic of `upload`, `make_folder` and `export`. Drive itself is an oracle:
    `Service` says which pages a query yields and what a create call returns. */
module Drive {
  import opened Wrappers
  import opened Query
  import opened Links

  /** A record as `search` asks for it: `files(id, name, mimeType, size)`.
      Drive leaves `size` out of some records (folders, Google documents). */
  datatype Item = Item(id: string, name: string, mimeType: string, size: Option<int>)

  /** One response of `files().list`. An empty token means "no more pages". */
  datatype Page = Page(files: seq<Item>, nextPageToken: string)

  /** The body of a `files().create` request. */
  datatype Metadata = Metadata(name: string, mimeType: string, parents: seq<string>)

  /** The remote service. `pages(q, n)` lists, in order, the responses Drive
      gives to query `q` with page size `n` when each next request carries the
      previous response's token. The create calls answer `None` for an
      `HttpError`, otherwise the folder id or the stored file name. */
  datatype Service = Service(
    pages: (string, int) -> seq<Page>,
    createFolder: Metadata -> Option<string>,
    createFile: Metadata -> Option<string>)

  /** Drive never hands out an empty id: the hypothesis under which the bot's
      cache stays resolvable. */
  ghost predicate NonEmptyIds(svc: Service) {
    forall q, n, i, j :: 0 <= i < |svc.pages(q, n)| && 0 <= j < |svc.pages(q, n)[i].files|
      ==> svc.pages(q, n)[i].files[j].id != ""
  }

  /** The files of all the given pages, in order. */
  function Flatten(pages: seq<Page>): seq<Item> {
    if |pages| == 0 then [] else pages[0].files + Flatten(pages[1..])
  }

  /** What `search` returns: the first page and, when `recursive`, the pages
      after it for as long as a page carries a next-page token. */
  function Collect(pages: seq<Page>, recursive: bool): (r: seq<Item>)
    ensures |pages| > 0 ==> pages[0].files <= r
    ensures |pages| > 0 && !recursive ==> r == pages[0].files
    ensures |r| <= |Flatten(pages)|
  {
    if |pages| == 0 then []
    else if pages[0].nextPageToken != "" && recursive then pages[0].files + Collect(pages[1..], recursive)
    else pages[0].files
  }

  /** A recursive search returns exactly the pages up to and including the
      first one without a next-page token (or all of them if none lacks one). */
  lemma {:induction false} CollectFollowsTokens(pages: seq<Page>, n: nat)
    requires 0 < n <= |pages|
    requires forall i :: 0 <= i < n - 1 ==> pages[i].nextPageToken != ""
    requires n == |pages| || pages[n - 1].nextPageToken == ""
    ensures Collect(pages, true) == Flatten(pages[..n])
  {
    assert pages[..n][1..] == pages[1..][..n - 1];
    if n == 1 {
      assert Flatten(pages[..1][1..]) == [];
      if pages[0].nextPageToken != "" {
        assert |pages[1..]| == 0;
      }
    } else {
      CollectFollowsTokens(pages[1..], n - 1);
    }
  }

  /** Every item a search returns comes from one of the pages. */
  lemma {:induction false} CollectFromPages(pages: seq<Page>, recursive: bool, j: nat)
    requires j < |Collect(pages, recursive)|
    ensures exists i, k :: 0 <= i < |pages| && 0 <= k < |pages[i].files| && pages[i].files[k] == Collect(pages, recursive)[j]
  {
    var r := Collect(pages, recursive);
    if j < |pages[0].files| {
      assert pages[0].files[j] == r[j];
    } else {
      CollectFromPages(pages[1..], recursive, j - |pages[0].files|);
      var i, k :| 0 <= i < |pages[1..]| && 0 <= k < |pages[1..][i].files| && pages[1..][i].files[k] == r[j];
      assert pages[i + 1].files[k] == r[j];
    }
  }

  /** `update_folders`: remember name -> id for every item whose mime type is
      exactly the folder type, in order. */
  predicate IsFolder(item: Item) {
    item.mimeType == FolderType
  }

  function UpdateFolders(known: map<string, string>, items: seq<Item>): (r: map<string, string>)
    decreases |items|
    ensures known.Keys <= r.Keys
  {
    if |items| == 0 then known
    else UpdateFolders(if IsFolder(items[0]) then known[items[0].name := items[0].id] else known, items[1..])
  }

  /** The id of the last folder item called `name`: the reference for what
      `update_folders` leaves behind. */
  function LastFolderId(items: seq<Item>, name: string): Option<string> {
    if |items| == 0 then None
    else if IsFolder(items[|items| - 1]) && items[|items| - 1].name == name then Some(items[|items| - 1].id)
    else LastFolderId(items[..|items| - 1], name)
  }

  /** Recording two lists one after the other is recording their concatenation. */
  lemma {:induction false} UpdateFoldersConcat(known: map<string, string>, a: seq<Item>, b: seq<Item>)
    decreases |a|
    ensures UpdateFolders(known, a + b) == UpdateFolders(UpdateFolders(known, a), b)
  {
    if |a| > 0 {
      assert (a + b)[0] == a[0];
      assert (a + b)[1..] == a[1..] + b;
      UpdateFoldersConcat(if IsFolder(a[0]) then known[a[0].name := a[0].id] else known, a[1..], b);
    } else {
      assert a + b == b;
    }
  }

  /** After `update_folders`, a name maps to the id of the LAST folder item of
      that name; a name no folder item carries keeps its old entry or stays
      absent. */
  lemma {:induction false} UpdateFoldersLastWins(known: map<string, string>, items: seq<Item>, name: string)
    ensures LastFolderId(items, name).Some? ==>
      name in UpdateFolders(known, items) && UpdateFolders(known, items)[name] == LastFolderId(items, name).value
    ensures LastFolderId(items, name).None? ==>
      (name in UpdateFolders(known, items) <==> name in known)
      && (name in known ==> UpdateFolders(known, items)[name] == known[name])
  {
    if |items| > 0 {
      var init := items[..|items| - 1];
      var last := items[|items| - 1];
      assert items == init + [last];
      UpdateFoldersConcat(known, init, [last]);
      UpdateFoldersLastWins(known, init, name);
      var m := UpdateFolders(known, init);
      assert UpdateFolders(known, items) == UpdateFolders(m, [last]);
      assert [last][1..] == [];
    }
  }

  /** The result of a search together with the folder-name map it updated. */
  datatype Found = Found(items: seq<Item>, known: map<string, string>)

  /** `search` page by page: each response's folders are recorded before the
      next page is requested. It returns what `Collect` describes, and its map
      is the one-shot update over everything returned. */
  function Fetch(pages: seq<Page>, known: map<string, string>, recursive: bool): (r: Found)
    ensures r.items == Collect(pages, recursive)
    ensures r.known == UpdateFolders(known, r.items)
  {
    if |pages| == 0 then Found([], known)
    else
      var known' := UpdateFolders(known, pages[0].files);
      if pages[0].nextPageToken != "" && recursive then
        var rest := Fetch(pages[1..], known', recursive);
        UpdateFoldersConcat(known, pages[0].files, rest.items);
        Found(pages[0].files + rest.items, rest.known)
      else Found(pages[0].files, known')
  }

  /** `DriveAPI.search`. A `None` parent trips the argument validator; an
      empty name with an empty parent is refused; otherwise Drive is asked
      with the query text exactly as the source assembles it, glued mime
      clause included. */
  function Search(svc: Service, known: map<string, string>, name: string, parent: Option<string>,
                  pageSize: int, files: bool, folders: bool, recursive: bool): (r: Result<Found, ApiError>)
    ensures parent.None? ==> r == Failure(NoneArgument)
    ensures parent.Some? ==> (r.Failure? <==> name == "" && parent.value == "")
    ensures r.Failure? ==> parent.Some? ==> r.error == BothEmpty
    ensures r.Success? ==> parent.Some? && QueryAsWritten(name, parent.value, files, folders).Success?
    ensures r.Success? ==>
      r.value.items == Collect(svc.pages(QueryAsWritten(name, parent.value, files, folders).value, pageSize), recursive)
    ensures r.Success? ==> r.value.known == UpdateFolders(known, r.value.items)
  {
    if parent.None? then Failure(NoneArgument)
    else match QueryAsWritten(name, parent.value, files, folders)
      case Failure(e) => Failure(e)
      case Success(q) => Success(Fetch(svc.pages(q, pageSize), known, recursive))
  }

  /** An empty parent argument falls back to `DriveAPI.ROOT`, the root
      folder's display name (not its id), in `upload`, `make_folder` and
      `export`. */
  function DefaultParent(parent: string, rootName: string): (r: string)
    ensures parent != "" ==> r == parent
    ensures parent == "" ==> r == rootName
  {
    if parent == "" then rootName else parent
  }

  /** The name `upload` stores: the file name cut to at most 100 characters. */
  function UploadName(fileName: string): (r: string)
    ensures r <= fileName && |r| <= 100
    ensures |fileName| <= 100 ==> r == fileName
    ensures |fileName| > 100 ==> |r| == 100
  {
    fileName[..Min(|fileName|, 100)]
  }

  /** The metadata `upload` sends. */
  function UploadRequest(fileName: string, contentType: string, parent: string, rootName: string): (r: Metadata)
    ensures r.name == UploadName(fileName) && r.mimeType == contentType
    ensures r.parents == [DefaultParent(parent, rootName)]
  {
    Metadata(UploadName(fileName), contentType, [DefaultParent(parent, rootName)])
  }

  /** `DriveAPI.upload`: the stored name, or `None` for an `HttpError`. Drive
      is asked to store the file under a name that is a prefix of the given
      one, at most 100 characters long and cut only when longer, with the
      given content type, in exactly one folder: the given one, or the root
      (by its display name) when the given id is empty. */
  function Upload(svc: Service, fileName: string, contentType: string, parent: Option<string>, rootName: string)
    : (r: Result<Option<string>, ApiError>)
    ensures r.Failure? <==> parent.None?
    ensures r.Failure? ==> r.error == NoneArgument
    ensures r.Success? ==> exists m: Metadata ::
      && r.value == svc.createFile(m)
      && m.name <= fileName && |m.name| == Min(|fileName|, 100)
      && m.mimeType == contentType
      && |m.parents| == 1
      && (parent.value != "" ==> m.parents[0] == parent.value)
      && (parent.value == "" ==> m.parents[0] == rootName)
  {
    if parent.None? then Failure(NoneArgument)
    else
      var m := UploadRequest(fileName, contentType, parent.value, rootName);
      assert m.parents[0] == DefaultParent(parent.value, rootName);
      Success(svc.createFile(m))
  }

  /** The metadata `make_folder` sends. */
  function FolderRequest(fileName: string, parent: string, rootName: string): Metadata {
    Metadata(fileName, FolderType, [DefaultParent(parent, rootName)])
  }

  datatype Created = Created(ok: bool, known: map<string, string>)

  /** `DriveAPI.make_folder`: on success `True` is returned and the new id
      is recorded under the folder's name, overriding any older folder of
      that name; no other name is touched, and on failure nothing changes. */
  function MakeFolder(svc: Service, known: map<string, string>, fileName: string, parent: Option<string>, rootName: string)
    : (r: Result<Created, ApiError>)
    ensures r.Failure? <==> parent.None?
    ensures r.Failure? ==> r.error == NoneArgument
    ensures r.Success? ==> (r.value.ok <==> svc.createFolder(FolderRequest(fileName, parent.value, rootName)).Some?)
    ensures r.Success? && r.value.ok ==>
      fileName in r.value.known && Some(r.value.known[fileName]) == svc.createFolder(FolderRequest(fileName, parent.value, rootName))
    ensures r.Success? ==> r.value.known.Keys == known.Keys + (if r.value.ok then {fileName} else {})
    ensures r.Success? ==> forall n :: n in known && n != fileName ==> r.value.known[n] == known[n]
    ensures r.Success? && !r.value.ok ==> r.value.known == known
  {
    if parent.None? then Failure(NoneArgument)
    else match svc.createFolder(FolderRequest(fileName, parent.value, rootName))
      case Some(id) => Success(Created(true, known[fileName := id]))
      case None => Success(Created(false, known))
  }

  /** What `export` decides: nothing matched, a share link was granted for a
      file at or above the size limit, or the file is downloaded and attached.
      A first match without a size raises before either. */
  datatype Exported =
    | NotFound
    | Shared(link: string, fileId: string)
    | Attached(fileId: string)

  datatype ExportResult = ExportResult(outcome: Exported, known: map<string, string>)

  /** What `export` raises, with the folder-name map as it stands then: a
      `KeyError` on the size comes after the search has recorded its folders. */
  datatype ExportError = ExportError(error: ApiError, known: map<string, string>)

  /** The first page of the non-folder name search `export` runs. */
  function ExportMatches(svc: Service, fileName: string, parent: string, rootName: string): seq<Item>
    requires fileName != "" || DefaultParent(parent, rootName) != ""
  {
    Collect(svc.pages(QueryAsWritten(fileName, DefaultParent(parent, rootName), true, false).value, 1), false)
  }

  /** `DriveAPI.export`. "File not found." exactly when the search is empty;
      otherwise a share link for the first match iff its size reaches the
      limit (inclusive), else that match is attached; a first match that
      carries no size raises `KeyError` instead. */
  function Export(svc: Service, known: map<string, string>, fileName: string, parent: Option<string>,
                  limit: int, rootName: string): (r: Result<ExportResult, ExportError>)
    ensures parent.None? ==> r == Failure(ExportError(NoneArgument, known))
    ensures parent.Some? && fileName == "" && DefaultParent(parent.value, rootName) == "" ==>
      r == Failure(ExportError(BothEmpty, known))
    ensures parent.Some? && (fileName != "" || DefaultParent(parent.value, rootName) != "") ==>
      var matches := ExportMatches(svc, fileName, parent.value, rootName);
      && (r.Failure? <==> |matches| > 0 && matches[0].size.None?)
      && (r.Failure? ==> r.error == ExportError(MissingSize, UpdateFolders(known, matches)))
    ensures r.Success? ==>
      var matches := ExportMatches(svc, fileName, parent.value, rootName);
      && (r.value.outcome.NotFound? <==> |matches| == 0)
      && (r.value.outcome.Shared? <==> |matches| > 0 && matches[0].size.value >= limit)
      && (r.value.outcome.Attached? <==> |matches| > 0 && matches[0].size.value < limit)
      && (!r.value.outcome.NotFound? ==> r.value.outcome.fileId == matches[0].id)
      && (r.value.outcome.Shared? ==> r.value.outcome.link == ShareLink(fileName, matches[0].id))
      && r.value.known == UpdateFolders(known, matches)
  {
    if parent.None? then Failure(ExportError(NoneArgument, known))
    else match Search(svc, known, fileName, Some(DefaultParent(parent.value, rootName)), 1, true, false, false)
      case Failure(e) => Failure(ExportError(e, known))
      case Success(found) =>
        if |found.items| == 0 then Success(ExportResult(NotFound, found.known))
        else
          var first := found.items[0];
          if first.size.None? then Failure(ExportError(MissingSize, found.known))
          else if first.size.value >= limit then Success(ExportResult(Shared(ShareLink(fileName, first.id), first.id), found.known))
          else Success(ExportResult(Attached(first.id), found.known))
  }
}

=== FILE: history.dfy ===
/** The per-user command history of the older cog (discord_drive.py): a
    deque of at most fifteen commands, read back destructively, newest first. */
module History {
  import opened Wrappers

  /** `self.capacity`. */
  const Capacity := 15

  /** The last `k` elements of `s`. */
  function Last<T>(s: seq<T>, k: nat): seq<T>
    requires k <= |s|
  {
    s[|s| - k..]
  }

  /** `_save_to_history`: drop the oldest entry when the history is exactly
      full, then append. */
  function Save<T>(h: seq<T>, c: T): (r: seq<T>)
    ensures |r| > 0 && r[|r| - 1] == c
    ensures |h| <= Capacity ==> |r| == Min(|h| + 1, Capacity)
  {
    if |h| == Capacity then h[1..] + [c] else h + [c]
  }

  /** From a history within capacity, a save keeps the newest
      `min(|h| + 1, 15)` commands of `h + [c]`, in order. */
  lemma SaveKeepsNewest<T>(h: seq<T>, c: T)
    requires |h| <= Capacity
    ensures Save(h, c) == Last(h + [c], |Save(h, c)|)
  {
  }

  /** Saving commands one after another. */
  function SaveAll<T>(h: seq<T>, cs: seq<T>): seq<T>
    decreases |cs|
  {
    if |cs| == 0 then h else SaveAll(Save(h, cs[0]), cs[1..])
  }

  /** A suffix of a suffix is a suffix. */
  lemma LastOfLast<T>(x: seq<T>, m: nat, y: seq<T>, k: nat)
    requires m <= |x| && k <= m + |y|
    ensures Last(Last(x, m) + y, k) == Last(x + y, k)
  {
    var a := Last(Last(x, m) + y, k);
    var b := Last(x + y, k);
    forall i | 0 <= i < k
      ensures a[i] == b[i]
    {
      var j := m + |y| - k + i;
      if j < m {
        assert a[i] == x[|x| - m + j];
        assert b[i] == (x + y)[|x| + |y| - k + i];
      } else {
        assert a[i] == y[j - m];
      }
    }
  }

  /** Appending to a suffix keeps the same newest elements as appending to
      the whole. */
  lemma SuffixThenLast<T>(x: seq<T>, s: seq<T>, rest: seq<T>, k: nat)
    requires |s| <= |x| && s == Last(x, |s|) && k <= |s| + |rest|
    ensures Last(s + rest, k) == Last(x + rest, k)
  {
    LastOfLast(x, |s|, rest, k);
  }

  /** One save followed by further commands keeps the same newest
      commands as saving nothing and appending everything. */
  lemma SaveThenLast<T>(h: seq<T>, c: T, rest: seq<T>, k: nat)
    requires |h| <= Capacity && k == Min(|h| + 1 + |rest|, Capacity)
    ensures |Save(h, c)| <= Capacity
    ensures k == Min(|Save(h, c)| + |rest|, Capacity)
    ensures Last(Save(h, c) + rest, k) == Last(h + ([c] + rest), k)
  {
    if |h| == Capacity {
      SaveKeepsNewest(h, c);
      SuffixThenLast(h + [c], Save(h, c), rest, k);
      assert h + [c] + rest == h + ([c] + rest);
    } else {
      assert Save(h, c) + rest == h + ([c] + rest);
    }
  }

  /** However many commands are saved into a history within capacity, the
      result is the newest fifteen of everything saved, in order. */
  lemma {:induction false} SaveAllKeepsNewest<T>(h: seq<T>, cs: seq<T>)
    requires |h| <= Capacity
    decreases |cs|
    ensures |SaveAll(h, cs)| == Min(|h| + |cs|, Capacity)
    ensures SaveAll(h, cs) == Last(h + cs, Min(|h| + |cs|, Capacity))
  {
    if |cs| == 0 {
      assert h + cs == h;
    } else {
      var k := Min(|h| + |cs|, Capacity);
      SaveAllKeepsNewest(Save(h, cs[0]), cs[1..]);
      SaveThenLast(h, cs[0], cs[1..], k);
      assert [cs[0]] + cs[1..] == cs;
    }
  }

  /** The exception `deque.pop` and `_get_last_commands` raise. */
  datatype IndexError = IndexError

  /** `_get_last_command`: pop the newest command. */
  function Pop<T>(h: seq<T>): (r: Result<(T, seq<T>), IndexError>)
    ensures r.Failure? <==> |h| == 0
    ensures r.Success? ==> r.value.1 + [r.value.0] == h
  {
    if |h| == 0 then Failure(IndexError) else Success((h[|h| - 1], h[..|h| - 1]))
  }

  /** `s` read back to front. */
  function Reverse<T>(s: seq<T>): (r: seq<T>)
    ensures |r| == |s|
    ensures forall i :: 0 <= i < |s| ==> r[i] == s[|s| - 1 - i]
  {
    if |s| == 0 then [] else [s[|s| - 1]] + Reverse(s[..|s| - 1])
  }

  /** What `_get_last_commands` hands back and what it leaves behind. */
  datatype Popped<T> = Popped(commands: seq<T>, rest: seq<T>)

  /** `_get_last_commands(n)`: raise `IndexError`, leaving the history alone,
      when more commands are asked for than it holds; otherwise pop the
      newest `n` (none for a negative `n`), newest first. */
  method GetLastN<T>(h: seq<T>, n: int) returns (r: Result<Popped<T>, IndexError>)
    ensures r.Failure? <==> n > |h|
    ensures r.Success? ==> var k := if n < 0 then 0 else n;
      && |r.value.commands| == k
      && r.value.rest == h[..|h| - k]
      && forall j :: 0 <= j < k ==> r.value.commands[j] == h[|h| - 1 - j]
  {
    if n > |h| {
      return Failure(IndexError);
    }
    var k := if n < 0 then 0 else n;
    var commands: seq<T> := [];
    var rest := h;
    var i := 0;
    while i < k
      invariant 0 <= i <= k
      invariant rest == h[..|h| - i]
      invariant |commands| == i
      invariant forall j :: 0 <= j < i ==> commands[j] == h[|h| - 1 - j]
    {
      var popped := Pop(rest);
      commands := commands + [popped.value.0];
      rest := popped.value.1;
      i := i + 1;
    }
    return Success(Popped(commands, rest));
  }

  /** Nothing is lost: what remains followed by the popped commands put back
      in age order is the original history. */
  lemma PoppedRestores<T>(h: seq<T>, k: nat, p: Popped<T>)
    requires k <= |h|
    requires |p.commands| == k && p.rest == h[..|h| - k]
    requires forall j :: 0 <= j < k ==> p.commands[j] == h[|h| - 1 - j]
    ensures p.rest + Reverse(p.commands) == h
  {
    var r := p.rest + Reverse(p.commands);
    forall i | 0 <= i < |h|
      ensures r[i] == h[i]
    {
      if i >= |h| - k {
        assert r[i] == Reverse(p.commands)[i - (|h| - k)];
      }
    }
  }
}

=== FILE: legacy.dfy ===
/** The older cog in discord_drive.py: the same `cd` state machine with a
    folders-only cache, plus the per-user command history that `cd`, `ls`,
    `upload`, `mkdir` and `getn` record into. Its Drive facade, `drive.DriveAPI`,
    is not part of this model, so the calls it makes are the oracle `Remote`. */
module Legacy {
  import opened Wrappers
  import opened Drive
  import opened Cache
  import opened Navigation
  import opened History

  /** What `_save_to_history` records: the command's name and its argument
      (the timestamp is left out). */
  datatype Command =
    | CdCmd(path: string)
    | LsCmd
    | UploadCmd(fileName: string)
    | MkdirCmd(folderName: string)
    | GetnCmd(n: int)

  /** One cached directory of the older cog: no file list. */
  datatype Folder = Folder(id: Option<string>, folders: seq<string>)

  /** The older facade's answers: a folder search by name under a parent id,
      the folders-only listing of a parent id, folder creation, and the text
      `upload_from_discord` returns for an attachment (empty when falsy). */
  datatype Remote = Remote(
    find: (string, Option<string>) -> seq<Item>,
    subfolders: Option<string> -> seq<Item>,
    makeFolder: (string, Option<string>) -> bool,
    upload: string -> string)

  datatype State = State(
    root: Path,
    authenticated: bool,
    sessions: map<UserId, Session>,
    dirs: map<Path, Folder>,
    histories: map<UserId, seq<Command>>)

  function SessionIn(st: State, user: UserId): Session {
    if user in st.sessions then st.sessions[user] else Session(st.root, st.root)
  }

  function DirIn(st: State, p: Path): Folder {
    if p in st.dirs then st.dirs[p] else Folder(None, [])
  }

  /** `_command_history[user]`: empty for a user never seen. */
  function HistoryIn(st: State, user: UserId): seq<Command> {
    if user in st.histories then st.histories[user] else []
  }

  function Record(st: State, user: UserId, c: Command): (r: State)
    ensures HistoryIn(r, user) == Save(HistoryIn(st, user), c)
    ensures forall u :: u != user ==> HistoryIn(r, u) == HistoryIn(st, u)
    ensures r == st.(histories := r.histories)
  {
    st.(histories := st.histories[user := Save(HistoryIn(st, user), c)])
  }

  /** The moving tail of the older `cd`: set the current directory, record
      the command, then cache the folders-only listing under the new path. */
  function Move(st: State, remote: Remote, user: UserId, path: string, target: Path, id: Option<string>)
    : (r: (State, Reply))
    ensures r.1 == Changed(target)
    ensures SessionIn(r.0, user) == SessionIn(st, user).(current := target)
    ensures HistoryIn(r.0, user) == Save(HistoryIn(st, user), CdCmd(path))
    ensures forall u :: u != user ==> SessionIn(r.0, u) == SessionIn(st, u) && HistoryIn(r.0, u) == HistoryIn(st, u)
    ensures DirIn(r.0, target) == Folder(id, Names(remote.subfolders(id)))
    ensures r.0.root == st.root && r.0.authenticated == st.authenticated
  {
    var moved := st.(sessions := st.sessions[user := SessionIn(st, user).(current := target)]);
    var recorded := Record(moved, user, CdCmd(path));
    (recorded.(dirs := st.dirs[target := Folder(id, Names(remote.subfolders(id)))]), Changed(target))
  }

  /** `/cd path` of the older cog: the same slot overwrite as the newer one;
      only a move records the command, and it does so before the refresh. */
  function LegacyCd(st: State, remote: Remote, user: UserId, path: string): (r: (State, Reply))
    ensures !st.authenticated ==> r == (st, NotAuthenticated)
    ensures st.authenticated ==> SessionIn(r.0, user).previous == SessionIn(st, user).current
    ensures r.0.root == st.root && r.0.authenticated == st.authenticated
    ensures HistoryIn(r.0, user) == if r.1.Changed? then Save(HistoryIn(st, user), CdCmd(path)) else HistoryIn(st, user)
    ensures r.1.Changed? ==> (r.1.path == SessionIn(r.0, user).current
      && DirIn(r.0, r.1.path).folders == Names(remote.subfolders(DirIn(r.0, r.1.path).id)))
    ensures !r.1.Changed? ==> SessionIn(r.0, user).current == SessionIn(st, user).current && r.0.dirs == st.dirs
    // Which argument moves, where to, and under which folder id.
    ensures st.authenticated && Classify(path).Here? ==> r.1 == Unchanged
    ensures st.authenticated && Classify(path).Home? ==>
      r.1 == Changed(st.root) && DirIn(r.0, st.root).id == DirIn(st, st.root).id
    ensures st.authenticated && Classify(path).Up? ==>
      var here := SessionIn(st, user).current;
      if here == st.root then r.1 == AtRoot
      else r.1 == Changed(Parent(here)) && DirIn(r.0, Parent(here)).id == DirIn(st, Parent(here)).id
    ensures st.authenticated && Classify(path).Back? ==>
      var here := SessionIn(st, user).current;
      r.1 == Changed(here) && DirIn(r.0, here).id == DirIn(st, here).id
    ensures st.authenticated && Classify(path).Child? ==>
      var here := SessionIn(st, user).current;
      var hits := remote.find(path, DirIn(st, here).id);
      if |hits| == 0 then r.1 == NotReachable(path)
      else r.1 == Changed(here + [hits[0].name]) && DirIn(r.0, r.1.path).id == Some(hits[0].id)
  {
    if !st.authenticated then (st, NotAuthenticated)
    else
      var here := SessionIn(st, user).current;
      var marked := st.(sessions := st.sessions[user := Session(here, here)]);
      match Classify(path)
      case Home => Move(marked, remote, user, path, st.root, DirIn(st, st.root).id)
      case Here => (marked, Unchanged)
      case Up =>
        if here != st.root then Move(marked, remote, user, path, Parent(here), DirIn(st, Parent(here)).id)
        else (marked, AtRoot)
      case Back => Move(marked, remote, user, path, here, DirIn(st, here).id)
      case Child(name) =>
        var hits := remote.find(name, DirIn(st, here).id);
        if |hits| == 0 then (marked, NotReachable(name))
        else Move(marked, remote, user, path, here + [hits[0].name], Some(hits[0].id))
  }

  /** The older `cd` touches no other user's session or history. */
  lemma LegacyCdOthersUntouched(st: State, remote: Remote, user: UserId, path: string, other: UserId)
    requires other != user
    ensures SessionIn(LegacyCd(st, remote, user, path).0, other) == SessionIn(st, other)
    ensures HistoryIn(LegacyCd(st, remote, user, path).0, other) == HistoryIn(st, other)
  {
    if st.authenticated {
      var here := SessionIn(st, user).current;
      var marked := st.(sessions := st.sessions[user := Session(here, here)]);
      assert SessionIn(marked, other) == SessionIn(st, other);
      assert HistoryIn(marked, other) == HistoryIn(st, other);
    }
  }

  /** In the older cog too, `cd -` stays where the user is, and so it records
      a move that moved nothing. */
  lemma LegacyCdBackStays(st: State, remote: Remote, user: UserId)
    requires st.authenticated
    ensures var r := LegacyCd(st, remote, user, "-");
      && SessionIn(r.0, user) == Session(SessionIn(st, user).current, SessionIn(st, user).current)
      && r.1 == Changed(SessionIn(st, user).current)
      && HistoryIn(r.0, user) == Save(HistoryIn(st, user), CdCmd("-"))
  {
  }

  /** `/ls` of the older cog: the listing text is left out; the command is
      always recorded once the bot is authenticated. */
  function LegacyLs(st: State, user: UserId): (r: State)
    ensures !st.authenticated ==> r == st
    ensures st.authenticated ==> HistoryIn(r, user) == Save(HistoryIn(st, user), LsCmd)
    ensures r == st.(histories := r.histories)
  {
    if !st.authenticated then st else Record(st, user, LsCmd)
  }

  /** `/upload` of the older cog: recorded only when the upload answered with
      non-empty text. */
  function LegacyUpload(st: State, remote: Remote, user: UserId, fileName: string): (r: State)
    ensures HistoryIn(r, user) == if st.authenticated && remote.upload(fileName) != ""
      then Save(HistoryIn(st, user), UploadCmd(fileName)) else HistoryIn(st, user)
    ensures r == st.(histories := r.histories)
  {
    if !st.authenticated || remote.upload(fileName) == "" then st else Record(st, user, UploadCmd(fileName))
  }

  /** `/mkdir name` of the older cog: the current directory's folders are
      relisted only when creation succeeded, but the command is recorded
      either way. */
  function LegacyMkdir(st: State, remote: Remote, user: UserId, admin: bool, folderName: string): (r: (State, Reply))
    ensures !admin ==> r == (st, MissingPermissions)
    ensures admin && !st.authenticated ==> r == (st, NotAuthenticated)
    ensures admin && st.authenticated ==> HistoryIn(r.0, user) == Save(HistoryIn(st, user), MkdirCmd(folderName))
    ensures r.0.sessions == st.sessions && r.0.root == st.root && r.0.authenticated == st.authenticated
    ensures var here := SessionIn(st, user).current;
      && (r.1 == FolderCreated <==> admin && st.authenticated && remote.makeFolder(folderName, DirIn(st, here).id))
      && (r.1 == FolderCreated ==>
            DirIn(r.0, here) == DirIn(st, here).(folders := Names(remote.subfolders(DirIn(st, here).id))))
      && (r.1 != FolderCreated ==> r.0.dirs == st.dirs)
      && (forall p :: p != here ==> DirIn(r.0, p) == DirIn(st, p))
  {
    if !admin then (st, MissingPermissions)
    else if !st.authenticated then (st, NotAuthenticated)
    else
      var here := SessionIn(st, user).current;
      var parentId := DirIn(st, here).id;
      if remote.makeFolder(folderName, parentId) then
        var refreshed := st.(dirs := st.dirs[here := Folder(parentId, Names(remote.subfolders(parentId)))]);
        (Record(refreshed, user, MkdirCmd(folderName)), FolderCreated)
      else (Record(st, user, MkdirCmd(folderName)), FolderNotCreated)
  }

  /** What `/getn` answers. */
  datatype Getn =
    | GetnRefused            // not an administrator
    | GetnNotAuthenticated
    | RetrievalError         // "Error retrieving commands"
    | Retrieved(commands: seq<Command>)

  /** `/getn n` (administrators only): pop the newest `n` commands, then
      record `getn` itself; asking for more than the history holds changes
      nothing. */
  method LegacyGetn(st: State, user: UserId, admin: bool, n: int) returns (r: State, reply: Getn)
    ensures !admin ==> r == st && reply == GetnRefused
    ensures admin && !st.authenticated ==> r == st && reply == GetnNotAuthenticated
    ensures admin && st.authenticated ==> (reply == RetrievalError <==> n > |HistoryIn(st, user)|)
    ensures !reply.Retrieved? ==> r == st
    ensures reply.Retrieved? ==>
      var h := HistoryIn(st, user);
      var k := if n < 0 then 0 else n;
      && k <= |h|
      && reply.commands == Reverse(h[|h| - k..])
      && HistoryIn(r, user) == Save(h[..|h| - k], GetnCmd(n))
    ensures r == st.(histories := r.histories)
    ensures forall u :: u != user ==> HistoryIn(r, u) == HistoryIn(st, u)
  {
    if !admin {
      return st, GetnRefused;
    }
    if !st.authenticated {
      return st, GetnNotAuthenticated;
    }
    var h := HistoryIn(st, user);
    var popped := GetLastN(h, n);
    if popped.Failure? {
      return st, RetrievalError;
    }
    var k := if n < 0 then 0 else n;
    assert popped.value.commands == Reverse(h[|h| - k..]);
    var cleared := st.(histories := st.histories[user := popped.value.rest]);
    r := Record(cleared, user, GetnCmd(n));
    reply := Retrieved(popped.value.commands);
  }

  /** Every user's history holds at most fifteen commands. */
  ghost predicate Bounded(st: State) {
    forall u :: |HistoryIn(st, u)| <= Capacity
  }

  /** No command of the older cog lets a history grow past fifteen. */
  lemma CdKeepsBounded(st: State, remote: Remote, user: UserId, path: string)
    requires Bounded(st)
    ensures Bounded(LegacyCd(st, remote, user, path).0)
  {
    var r := LegacyCd(st, remote, user, path).0;
    forall u
      ensures |HistoryIn(r, u)| <= Capacity
    {
      if u == user {
        assert |HistoryIn(st, user)| <= Capacity;
      } else {
        LegacyCdOthersUntouched(st, remote, user, path, u);
      }
    }
  }

  lemma LsUploadKeepBounded(st: State, remote: Remote, user: UserId, fileName: string)
    requires Bounded(st)
    ensures Bounded(LegacyLs(st, user))
    ensures Bounded(LegacyUpload(st, remote, user, fileName))
  {
    assert |HistoryIn(st, user)| <= Capacity;
    var a := LegacyLs(st, user);
    var b := LegacyUpload(st, remote, user, fileName);
    forall u | u != user
      ensures HistoryIn(a, u) == HistoryIn(st, u) && HistoryIn(b, u) == HistoryIn(st, u)
    {
    }
  }

  lemma MkdirKeepsBounded(st: State, remote: Remote, user: UserId, admin: bool, folderName: string)
    requires Bounded(st)
    ensures Bounded(LegacyMkdir(st, remote, user, admin, folderName).0)
  {
    var r := LegacyMkdir(st, remote, user, admin, folderName).0;
    assert |HistoryIn(st, user)| <= Capacity;
    forall u | u != user
      ensures HistoryIn(r, u) == HistoryIn(st, u)
    {
    }
  }

  /** `getn` keeps the histories within capacity too. */
  method GetnKeepsBounded(st: State, user: UserId, admin: bool, n: int) returns (r: State, reply: Getn)
    requires Bounded(st)
    ensures Bounded(r)
  {
    r, reply := LegacyGetn(st, user, admin, n);
    var h := HistoryIn(st, user);
    assert |h| <= Capacity;
    forall u
      ensures |HistoryIn(r, u)| <= Capacity
    {
      if u == user && reply.Retrieved? {
        assert |h[..|h| - (if n < 0 then 0 else n)]| <= Capacity;
      } else if u != user {
        assert HistoryIn(r, u) == HistoryIn(st, u);
      }
    }
  }
}

=== FILE: links.dfy ===
/** The two textual formats the bot parses: the root-folder URL it is started
    with (discord_drive/_drive.py) and the share-link markdown that `export`
    produces and that `download`/`share` slice the file id back out of
    (discord_drive/_discord_drive.py). */
module Links {
  import opened Wrappers
  import opened Text

  /** The query parameter that Drive appends to folder URLs of older shares. */
  const ResourceKey := "?resourcekey="

  /** Why `DriveAPI.__init__` raises while reading the root URL. */
  datatype RootError =
    | EmptyRoot   // the explicit `raise Exception("A root directory must be provided.")`
    | NoSlash     // `rsplit("/", 1)[1]` on a string without '/' raises IndexError

  /** The root folder id taken from the folder URL the bot is configured
      with: the last path segment, cut at the first `?resourcekey=`. */
  function RootId(root: string): (r: Result<string, RootError>)
    ensures r == Failure(EmptyRoot) <==> root == ""
    ensures r == Failure(NoSlash) <==> root != "" && '/' !in root
    ensures r.Success? ==> '/' !in r.value && !Contains(r.value, ResourceKey)
    ensures r.Success? ==> |r.value| < |root|
  {
    if root == "" then Failure(EmptyRoot)
    else match AfterLast(root, '/')
      case None => Failure(NoSlash)
      case Some(tail) =>
        var id := BeforeFirst(tail, ResourceKey);
        assert '/' !in id by {
          forall i | 0 <= i < |id| ensures id[i] != '/' {
            assert id[i] == tail[i];
          }
        }
        Success(id)
  }

  /** Characterises the root id through the position `k` of the last '/'
      alone: it is a prefix of the text after `k` that either is all of that
      text or stops exactly where a `?resourcekey=` begins. */
  lemma RootIdIsCutLastSegment(root: string, k: nat)
    requires k < |root| && root[k] == '/' && '/' !in root[k + 1..]
    ensures RootId(root).Success?
    ensures RootId(root).value <= root[k + 1..]
    ensures RootId(root).value == root[k + 1..] || OccursAt(root[k + 1..], ResourceKey, |RootId(root).value|)
  {
    assert root[k] in root;
    var tail := AfterLast(root, '/').value;
    assert |root| - |tail| - 1 == k;
    assert tail == root[k + 1..];
  }

  /** The markdown link that `export` returns for a file too large to attach:
      `[name](<https://drive.google.com/file/d/ID/view?usp=sharing>)`. */
  const LinkHost := "](<https://drive.google.com/"
  const Marker := "file/d/"
  const LinkTail := "/view?usp=sharing>)"

  /** The link carries the marker right after the host and ends with the
      19-character tail, the two landmarks the revocation slices between. */
  function ShareLink(fileName: string, fileId: string): (r: string)
    ensures OccursAt(r, Marker, 1 + |fileName| + |LinkHost|)
    ensures Contains(r, Marker)
    ensures |LinkTail| <= |r| && r[|r| - |LinkTail|..] == LinkTail
  {
    var head := "[" + fileName + LinkHost;
    var rest := Marker + fileId + LinkTail;
    var r := "[" + fileName + LinkHost + Marker + fileId + LinkTail;
    assert r == head + rest;
    assert r[|head|..|head| + |Marker|] == rest[..|Marker|];
    assert OccursAt(r, Marker, |head|);
    assert r == (head + Marker + fileId) + LinkTail;
    r
  }

  /** The exception `str.index` raises when the marker is missing. */
  datatype ValueError = MarkerMissing

  /** `file[file.index("file/d/")+7:-19]`: the id the bot revokes sharing of
      once a link's timeout has passed. */
  function LinkFileId(text: string): (r: Result<string, ValueError>)
    ensures r.Failure? <==> !Contains(text, Marker)
  {
    match Find(text, Marker)
    case None => Failure(MarkerMissing)
    case Some(i) => Success(Slice(text, i + |Marker|, -|LinkTail|))
  }

  /** A window of `s` starting at a character other than 'f' is not the
      marker. */
  lemma NotMarkerAt(s: string, j: nat)
    requires j < |s| && s[j] != 'f'
    ensures !OccursAt(s, Marker, j)
  {
  }

  /** A window of `s` covering a ']' is not the marker, which has none. */
  lemma NotMarkerAcross(s: string, j: nat, p: nat)
    requires j <= p < j + |Marker| <= |s| && s[p] == ']'
    ensures !OccursAt(s, Marker, j)
  {
    assert s[j..j + |Marker|][p - j] == ']';
  }

  /** No `file/d/` starts before the host text that follows a bracketed
      name: the name does not contain it, the ']' after the name breaks any
      window that straddles it, and the host text has no 'f'. */
  lemma NoMarkerBeforeHost(fileName: string, rest: string, j: nat)
    requires !Contains(fileName, Marker)
    requires j < 1 + |fileName| + |LinkHost|
    ensures !OccursAt("[" + fileName + (LinkHost + rest), Marker, j)
  {
    var a := "[" + fileName;
    var t := LinkHost + rest;
    var s := a + t;
    var p := |a|;
    if j + |Marker| <= |s| {
      if j == 0 {
        NotMarkerAt(s, j);
      } else if j + |Marker| <= p {
        assert s[j..j + |Marker|] == fileName[j - 1..j - 1 + |Marker|];
        assert !OccursAt(fileName, Marker, j - 1);
      } else if j < p {
        assert s[p] == t[0] == ']';
        NotMarkerAcross(s, j, p);
      } else {
        assert s[j] == t[j - p] == LinkHost[j - p];
        assert 'f' !in LinkHost;
        NotMarkerAt(s, j);
      }
    }
  }

  /** No `file/d/` starts before the one the link itself carries. */
  lemma NoEarlierMarker(fileName: string, fileId: string, j: nat)
    requires !Contains(fileName, Marker)
    requires j < 1 + |fileName| + |LinkHost|
    ensures !OccursAt(ShareLink(fileName, fileId), Marker, j)
  {
    var rest := Marker + fileId + LinkTail;
    NoMarkerBeforeHost(fileName, rest, j);
    assert ShareLink(fileName, fileId) == "[" + fileName + (LinkHost + rest);
  }

  /** The first `file/d/` in a share link is the one the link itself
      carries, right after the host. */
  lemma MarkerAfterHost(fileName: string, fileId: string)
    requires !Contains(fileName, Marker)
    ensures Find(ShareLink(fileName, fileId), Marker) == Some(1 + |fileName| + |LinkHost|)
  {
    var s := ShareLink(fileName, fileId);
    var k := 1 + |fileName| + |LinkHost|;
    var rest := Marker + fileId + LinkTail;
    assert s == ("[" + fileName + LinkHost) + rest;
    assert OccursAt(s, Marker, k) by {
      assert s[k..k + |Marker|] == rest[..|Marker|];
    }
    forall j: nat | j < k
      ensures !OccursAt(s, Marker, j)
    {
      NoEarlierMarker(fileName, fileId, j);
    }
  }

  /** Cutting a known prefix and a known suffix off a string leaves the
      middle. */
  lemma SliceMiddle(pre: string, mid: string, post: string)
    requires |post| > 0
    ensures Slice(pre + mid + post, |pre|, -|post|) == mid
  {
    var s := pre + mid + post;
    assert s[|pre|..|s| - |post|] == mid;
  }

  /** Reading a share link back gives exactly the id it was made from, as long
      as the file name does not itself contain the marker `file/d/`. */
  lemma LinkRoundTrip(fileName: string, fileId: string)
    requires !Contains(fileName, Marker)
    ensures LinkFileId(ShareLink(fileName, fileId)) == Success(fileId)
  {
    var pre := "[" + fileName + LinkHost + Marker;
    MarkerAfterHost(fileName, fileId);
    assert ShareLink(fileName, fileId) == pre + fileId + LinkTail;
    SliceMiddle(pre, fileId, LinkTail);
  }
}

=== FILE: listing.dfy ===
/** What the cog shows without changing anything
    (discord_drive/_discord_drive.py): the autocomplete choices of `cd` and of
    `download`/`share`, and `/ls`'s name column, shortened, padded with blank
    rows and cut into pages of ten. */
module Listing {
  import opened Wrappers
  import opened Text
  import opened Query
  import opened Drive
  import opened Cache
  import opened Navigation
  import opened Commands

  /** `_get_folders`: the two navigation shortcuts, then the cached folders of
      the user's current directory. */
  function FolderChoices(cog: Cog, user: UserId): (r: seq<string>)
    ensures |r| == 2 + |Lookup(cog.cache, Current(cog, user)).folders|
    ensures r[0] == "~" && r[1] == ".."
    ensures r[2..] == Lookup(cog.cache, Current(cog, user)).folders
  {
    ["~", ".."] + Lookup(cog.cache, Current(cog, user)).folders
  }

  /** `_get_files`: the cached files of the user's current directory. */
  function FileChoices(cog: Cog, user: UserId): seq<string> {
    Lookup(cog.cache, Current(cog, user)).files
  }

  /** Right after a successful `cd`, the choices offered are exactly the
      shortcuts followed by the folder-like children of the new directory,
      in listing order, and the file choices are the other children. */
  lemma ChoicesAfterCd(cog: Cog, svc: Service, user: UserId, path: string)
    requires Cd(cog, svc, user, path).1.Changed?
    ensures var r := Cd(cog, svc, user, path).0;
      var id := Lookup(r.cache, Current(r, user)).id.value;
      && id != ""
      && FolderChoices(r, user) == ["~", ".."] + NamesOfKind(Children(svc, id), true)
      && FileChoices(r, user) == NamesOfKind(Children(svc, id), false)
  {
  }

  /** After `/pwd`, `_get_files` offers exactly the file-like children it
      counted and `_get_folders` the shortcuts followed by the folder-like
      ones, each in listing order. */
  lemma ChoicesAfterPwd(cog: Cog, svc: Service, user: UserId)
    requires cog.authenticated && Resolved(cog.cache, Current(cog, user))
    ensures Pwd(cog, svc, user).1.Counted?
    ensures var r := Pwd(cog, svc, user);
      var id := Lookup(cog.cache, Current(cog, user)).id.value;
      && FileChoices(r.0, user) == NamesOfKind(Children(svc, id), false)
      && FolderChoices(r.0, user) == ["~", ".."] + NamesOfKind(Children(svc, id), true)
      && |FileChoices(r.0, user)| == r.1.files
      && |FolderChoices(r.0, user)| == 2 + r.1.folders
  {
  }

  /** `name.rsplit(".", 1)[0]`: the name without its last extension. */
  function StripExtension(name: string): (r: string)
    ensures '.' in name ==> |r| < |name| && name == r + "." + name[|r| + 1..] && '.' !in name[|r| + 1..]
    ensures '.' !in name ==> r == name
  {
    var r := BeforeLast(name, '.');
    assert '.' in name ==> name == r + "." + name[|r| + 1..] by {
      if '.' in name {
        assert name == name[..|r|] + [name[|r|]] + name[|r| + 1..];
      }
    }
    r
  }

  /** `shorten_name`: with `stripExt` (passed for files, not folders) the last
      extension goes first; a name of 43 characters or more is cut to its
      first 41 followed by "...". */
  function ShortenName(name: string, stripExt: bool): (r: string)
    ensures |r| <= 44
    ensures var base := if stripExt then StripExtension(name) else name;
      && (|base| < 43 ==> r == base)
      && (|base| >= 43 ==> |r| == 44 && r[..41] == base[..41] && r[41..] == "...")
  {
    var base := if stripExt then StripExtension(name) else name;
    if |base| < 43 then base else base[..41] + "..."
  }

  /** Shortening twice shortens no further than once. */
  lemma ShortenIdempotent(name: string)
    ensures ShortenName(ShortenName(name, false), false) == ShortenName(name, false)
  {
  }

  const PerPage := 10
  const FolderIcon := '\U{1F4C1}'
  const FileIcon := '\U{1F4C4}'

  /** One line of the Name column: the kind's icon and the shortened name. */
  function Row(item: Item): (r: string)
    ensures IsFolderLike(item) ==> r == [FolderIcon] + " " + ShortenName(item.name, false)
    ensures !IsFolderLike(item) ==> r == [FileIcon] + " " + ShortenName(item.name, true)
  {
    [if IsFolderLike(item) then FolderIcon else FileIcon] + " " + ShortenName(item.name, !IsFolderLike(item))
  }

  function Rows(items: seq<Item>): (r: seq<string>)
    ensures |r| == |items|
    ensures forall i :: 0 <= i < |items| ==> r[i] == Row(items[i])
  {
    if |items| == 0 then [] else [Row(items[0])] + Rows(items[1..])
  }

  function Blanks(n: nat): (r: seq<string>)
    ensures |r| == n && forall i :: 0 <= i < n ==> r[i] == ""
  {
    if n == 0 then [] else Blanks(n - 1) + [""]
  }

  /** `list.extend([""] * (10 - len(list) % 10))`: between one and ten
      blanks, so the padded length is a multiple of ten strictly above the
      original. A list already a multiple of ten long (the empty one too)
      gains a whole blank page. */
  function Pad(rows: seq<string>): (r: seq<string>)
    ensures |r| % PerPage == 0
    ensures |rows| < |r| <= |rows| + PerPage
    ensures |r| == (|rows| / PerPage + 1) * PerPage
    ensures r[..|rows|] == rows
    ensures forall i :: |rows| <= i < |r| ==> r[i] == ""
  {
    rows + Blanks(PerPage - |rows| % PerPage)
  }

  function Concat(pages: seq<seq<string>>): seq<string> {
    if |pages| == 0 then [] else pages[0] + Concat(pages[1..])
  }

  /** `[rows[i:i+10] for i in range(0, len(rows), 10)]`: consecutive slices
      of at most ten that together give back the rows. */
  function Chunks(rows: seq<string>): (r: seq<seq<string>>)
    decreases |rows|
    ensures Concat(r) == rows
    ensures forall i :: 0 <= i < |r| ==> 0 < |r[i]| <= PerPage
  {
    if |rows| == 0 then []
    else
      var k := Min(PerPage, |rows|);
      var rest := Chunks(rows[k..]);
      assert ([rows[..k]] + rest)[1..] == rest;
      assert rows[..k] + rows[k..] == rows;
      [rows[..k]] + rest
  }

  /** When the length is a multiple of ten, every slice is full and there
      are length / 10 of them. */
  lemma {:induction false} FullChunks(rows: seq<string>)
    requires |rows| % PerPage == 0
    decreases |rows|
    ensures |Chunks(rows)| == |rows| / PerPage
    ensures forall i :: 0 <= i < |Chunks(rows)| ==> |Chunks(rows)[i]| == PerPage
  {
    if |rows| > 0 {
      var rest := rows[PerPage..];
      assert |rest| % PerPage == 0 && |rest| / PerPage + 1 == |rows| / PerPage;
      FullChunks(rest);
      assert Chunks(rows) == [rows[..PerPage]] + Chunks(rest);
    }
  }

  /** The Size column reads `int(item['size'])` for every child that is not
      folder-like, so each of those must carry a size. */
  predicate Sized(items: seq<Item>) {
    forall i | 0 <= i < |items| :: !IsFolderLike(items[i]) ==> items[i].size.Some?
  }

  /** The Name column of a listing laid out in pages: one row per item,
      padded to a whole number of pages, ten lines each, one more page than
      full tens of items. */
  function Pages(items: seq<Item>): (r: seq<seq<string>>)
    ensures |r| == |items| / PerPage + 1
    ensures forall i :: 0 <= i < |r| ==> |r[i]| == PerPage
    ensures Concat(r) == Pad(Rows(items))
  {
    FullChunks(Pad(Rows(items)));
    Chunks(Pad(Rows(items)))
  }

  /** `/ls`'s Name column as pages; a child file without a size makes the
      Size column raise `KeyError` before anything is sent. */
  function LsPages(cog: Cog, svc: Service, user: UserId): (r: Result<seq<seq<string>>, Reply>)
    ensures !cog.authenticated ==> r == Failure(NotAuthenticated)
    ensures cog.authenticated ==> (r.Success? <==>
      Resolved(cog.cache, Current(cog, user)) && Sized(Children(svc, Lookup(cog.cache, Current(cog, user)).id.value)))
    ensures r.Failure? && cog.authenticated ==> r.error.Raised?
    ensures r.Failure? && cog.authenticated && Resolved(cog.cache, Current(cog, user)) ==>
      r.error == Raised(MissingSize)
    ensures r.Success? ==>
      var items := Children(svc, Lookup(cog.cache, Current(cog, user)).id.value);
      && |r.value| == |items| / PerPage + 1
      && (forall i :: 0 <= i < |r.value| ==> |r.value[i]| == PerPage)
      && Concat(r.value) == Pad(Rows(items))
  {
    if !cog.authenticated then Failure(NotAuthenticated)
    else match Search(svc, cog.known, "", Lookup(cog.cache, Current(cog, user)).id, 100, true, true, true)
      case Failure(e) => Failure(Raised(e))
      case Success(found) =>
        if !Sized(found.items) then Failure(Raised(MissingSize))
        else Success(Pages(found.items))
  }

  /** `/ls` as a command: the pages, and the cog as `search` leaves it. The
      listing's folders are recorded in the folder-name map whenever the
      search runs, even when the Size column then raises; nothing else
      changes. */
  function Ls(cog: Cog, svc: Service, user: UserId): (r: (Cog, Result<seq<seq<string>>, Reply>))
    ensures r.1 == LsPages(cog, svc, user)
    ensures cog.authenticated && Resolved(cog.cache, Current(cog, user)) ==>
      r.0 == cog.(known := UpdateFolders(cog.known, Children(svc, Lookup(cog.cache, Current(cog, user)).id.value)))
    ensures !(cog.authenticated && Resolved(cog.cache, Current(cog, user))) ==> r.0 == cog
  {
    if !cog.authenticated then (cog, LsPages(cog, svc, user))
    else match Search(svc, cog.known, "", Lookup(cog.cache, Current(cog, user)).id, 100, true, true, true)
      case Failure(_) => (cog, LsPages(cog, svc, user))
      case Success(found) => (cog.(known := found.known), LsPages(cog, svc, user))
  }

  /** Line `i` of full pages laid end to end is line `i % 10` of page
      `i / 10`. */
  lemma {:induction false} PageLine(pages: seq<seq<string>>, i: nat)
    requires forall j :: 0 <= j < |pages| ==> |pages[j]| == PerPage
    requires i < |Concat(pages)|
    ensures |Concat(pages)| == |pages| * PerPage
    ensures i / PerPage < |pages| && pages[i / PerPage][i % PerPage] == Concat(pages)[i]
  {
    if i < PerPage {
      ConcatLength(pages);
      assert Concat(pages) == pages[0] + Concat(pages[1..]);
    } else {
      ConcatLength(pages);
      assert Concat(pages) == pages[0] + Concat(pages[1..]);
      PageLine(pages[1..], i - PerPage);
      assert (i - PerPage) / PerPage == i / PerPage - 1;
      assert (i - PerPage) % PerPage == i % PerPage;
    }
  }

  lemma {:induction false} ConcatLength(pages: seq<seq<string>>)
    requires forall j :: 0 <= j < |pages| ==> |pages[j]| == PerPage
    ensures |Concat(pages)| == |pages| * PerPage
  {
    if |pages| > 0 {
      ConcatLength(pages[1..]);
    }
  }

  /** In `/ls`, the row of the `i`-th child is line `i % 10` of page `i / 10`. */
  lemma LsRowPlacement(cog: Cog, svc: Service, user: UserId, i: nat)
    requires cog.authenticated && Resolved(cog.cache, Current(cog, user))
    requires Sized(Children(svc, Lookup(cog.cache, Current(cog, user)).id.value))
    requires i < |Children(svc, Lookup(cog.cache, Current(cog, user)).id.value)|
    ensures LsPages(cog, svc, user).Success?
    ensures var pages := LsPages(cog, svc, user).value;
      var items := Children(svc, Lookup(cog.cache, Current(cog, user)).id.value);
      i / PerPage < |pages| && pages[i / PerPage][i % PerPage] == Row(items[i])
  {
    var pages := LsPages(cog, svc, user).value;
    var items := Children(svc, Lookup(cog.cache, Current(cog, user)).id.value);
    var padded := Pad(Rows(items));
    assert Concat(pages) == padded;
    PageLine(pages, i);
    assert padded[i] == padded[..|items|][i] == Rows(items)[i];
  }
}

=== FILE: navigation.dfy ===
/** The cog `DriveAPICommands` (discord_drive/_discord_drive.py) as a state
    machine: per-user working directories `_wd_cache`, the shared directory
    cache `_drive_state`, and the commands that move and refresh them. */
module Navigation {
  import opened Wrappers
  import opened Query
  import opened Links
  import opened Drive
  import opened Cache

  type UserId = int

  /** `_wd_cache[user]`: the current directory and the one before the last
      `cd`. */
  datatype Session = Session(current: Path, previous: Path)

  /** The cog together with the `DriveAPI` state it reads: the root path
      captured at start-up, the API's `ROOT`/`ROOT_ID`, whether a service
      exists, the sessions, the directory cache and the folder-name map. */
  datatype Cog = Cog(
    root: Path,
    rootName: string,
    rootId: string,
    authenticated: bool,
    sessions: map<UserId, Session>,
    cache: Dir,
    known: map<string, string>)

  /** Reading `_wd_cache[user]`: a user never seen starts at the root twice. */
  function SessionOf(cog: Cog, user: UserId): Session {
    if user in cog.sessions then cog.sessions[user] else Session(cog.root, cog.root)
  }

  function Current(cog: Cog, user: UserId): Path {
    SessionOf(cog, user).current
  }

  /** The listing a refresh of folder `id` stores: every page of the
      unrestricted child search with page size 100. */
  function Children(svc: Service, id: string): seq<Item>
    requires id != ""
  {
    Collect(svc.pages(QueryAsWritten("", id, true, true).value, 100), true)
  }

  /** What a command answers. */
  datatype Reply =
    | NotAuthenticated          // `_API_ready`'s request to use `/authenticate`
    | MissingPermissions        // the `has_permissions(administrator=True)` refusal
    | Raised(error: ApiError)   // an exception out of `DriveAPI`
    | Changed(path: Path)       // "Directory changed to ..."
    | Unchanged                 // `cd .` returns silently
    | AtRoot                    // "You are in the root directory."
    | NotReachable(name: string)
    | Counted(folders: nat, files: nat)
    | FolderCreated
    | FolderNotCreated
    | Uploaded(stored: Option<string>)            // "File `stored` uploaded!"
    | UploadedArchive                             // the entries of a zip archive were uploaded
    | Delivered(outcome: Exported, revoked: Option<string>)
    | RevokeRaised(outcome: Exported, sliceError: ValueError)  // handed over, then the slice raised
    | TimeoutRaised   // `float(timeout)`, or `int(time() + timeout)` for nan and -inf, raised

  /** The argument of `cd`, by the branch it selects. */
  datatype Token = Home | Here | Up | Back | Child(name: string)

  /** Exactly five arguments are reserved; any other text names a child
      folder, itself. */
  function Classify(path: string): (r: Token)
    ensures r.Child? <==> path !in {"", "~", ".", "..", "-"}
    ensures r.Child? ==> r.name == path
    ensures r == Home <==> path in {"", "~"}
  {
    if path == "" || path == "~" then Home
    else if path == "." then Here
    else if path == ".." then Up
    else if path == "-" then Back
    else Child(path)
  }

  /** The tail every moving branch of `cd` shares: set the user's current
      directory, then list the folder and cache the listing under it. The
      session moves even when the listing raises. */
  function Enter(cog: Cog, svc: Service, user: UserId, target: Path, id: Option<string>): (r: (Cog, Reply))
    ensures SessionOf(r.0, user) == SessionOf(cog, user).(current := target)
    ensures r.1.Raised? || r.1 == Changed(target)
    ensures r.1.Changed? <==> id.Some? && id.value != ""
    ensures r.1.Changed? ==> Lookup(r.0.cache, target) == Fresh(id.value, Children(svc, id.value))
    ensures r.1.Raised? ==> r.0.cache == cog.cache && r.0.known == cog.known
    ensures forall p :: p != target ==> Lookup(r.0.cache, p) == Lookup(cog.cache, p)
  {
    var moved := cog.(sessions := cog.sessions[user := SessionOf(cog, user).(current := target)]);
    match Search(svc, cog.known, "", id, 100, true, true, true)
    case Failure(e) => (moved, Raised(e))
    case Success(found) =>
      (moved.(cache := cog.cache[target := Fresh(id.value, found.items)], known := found.known), Changed(target))
  }

  /** Where a `cd` argument leads from the user's current directory: a
      target path with the folder id cached for it (or found by the child
      search), or a reply without a move. The child search may update the
      known-folders map either way. */
  datatype Plan =
    | Go(target: Path, id: Option<string>, known: map<string, string>)
    | Stay(reply: Reply, known: map<string, string>)

  function Destination(cog: Cog, svc: Service, user: UserId, path: string): (r: Plan)
    ensures r.Stay? ==> !r.reply.Changed?
    ensures !Classify(path).Child? ==> r.known == cog.known
    ensures r.Go? && !Classify(path).Child? ==>
      && r.id == Lookup(cog.cache, r.target).id
      && (r.target == cog.root || r.target == Current(cog, user) || r.target == Parent(Current(cog, user)))
    ensures r.Go? && Classify(path).Child? ==>
      r.id.Some? && |r.target| > 0 && Parent(r.target) == Current(cog, user)
  {
    var here := Current(cog, user);
    match Classify(path)
    case Home => Go(cog.root, Lookup(cog.cache, cog.root).id, cog.known)
    case Here => Stay(Unchanged, cog.known)
    case Up =>
      if here != cog.root then Go(Parent(here), Lookup(cog.cache, Parent(here)).id, cog.known)
      else Stay(AtRoot, cog.known)
    case Back => Go(here, Lookup(cog.cache, here).id, cog.known)
    case Child(name) =>
      match Search(svc, cog.known, name, Lookup(cog.cache, here).id, 1, false, true, false)
      case Failure(e) => Stay(Raised(e), cog.known)
      case Success(found) =>
        if |found.items| == 0 then Stay(NotReachable(name), found.known)
        else Go(here + [found.items[0].name], Some(found.items[0].id), found.known)
  }

  /** `/cd path`. Unless the bot is unauthenticated, the previous directory is
      overwritten with the current one BEFORE the argument is examined, so
      `cd -` then copies the current directory onto itself. */
  function Cd(cog: Cog, svc: Service, user: UserId, path: string): (r: (Cog, Reply))
    ensures !cog.authenticated ==> r == (cog, NotAuthenticated)
    ensures cog.authenticated ==> SessionOf(r.0, user).previous == Current(cog, user)
    ensures forall u :: u != user ==> SessionOf(r.0, u) == SessionOf(cog, u)
    ensures r.0.root == cog.root && r.0.authenticated == cog.authenticated
    ensures r.0.rootName == cog.rootName && r.0.rootId == cog.rootId
    ensures r.1.Changed? ==> r.1.path == Current(r.0, user)
    ensures r.1.Changed? ==> Resolved(r.0.cache, r.1.path)
    ensures r.1.Changed? ==> (Lookup(r.0.cache, r.1.path) ==
      Fresh(Lookup(r.0.cache, r.1.path).id.value, Children(svc, Lookup(r.0.cache, r.1.path).id.value)))
    ensures r.1.Changed? ==> var d := Destination(cog, svc, user, path);
      d.Go? && d.target == r.1.path && Lookup(r.0.cache, r.1.path).id == d.id
    ensures !r.1.Changed? ==> r.0.cache == cog.cache
    ensures forall p :: p != Current(r.0, user) ==> Lookup(r.0.cache, p) == Lookup(cog.cache, p)
  {
    if !cog.authenticated then (cog, NotAuthenticated)
    else
      var here := Current(cog, user);
      var marked := cog.(sessions := cog.sessions[user := Session(here, here)]);
      match Destination(cog, svc, user, path)
      case Stay(reply, known) => (marked.(known := known), reply)
      case Go(target, id, known) => Enter(marked.(known := known), svc, user, target, id)
  }

  /** `cd ~`, `cd ..` and `cd -` reuse the id already cached for their
      target, so the entry they refresh keeps its id. */
  lemma CdKeepsCachedId(cog: Cog, svc: Service, user: UserId, path: string)
    requires !Classify(path).Child?
    requires Cd(cog, svc, user, path).1.Changed?
    ensures var r := Cd(cog, svc, user, path);
      Lookup(r.0.cache, r.1.path).id == Lookup(cog.cache, r.1.path).id
  {
  }

  /** `cd` and `cd ~` go to the root; `cd .` leaves everything but the
      previous directory alone and answers nothing. */
  lemma CdHomeAndHere(cog: Cog, svc: Service, user: UserId, path: string)
    requires cog.authenticated
    ensures (path == "" || path == "~") ==> Current(Cd(cog, svc, user, path).0, user) == cog.root
    ensures path == "." ==> (Cd(cog, svc, user, path) ==
      (cog.(sessions := cog.sessions[user := Session(Current(cog, user), Current(cog, user))]), Unchanged))
  {
  }

  /** `cd .` is idempotent: a second one changes nothing further. */
  lemma CdHereIdempotent(cog: Cog, svc: Service, user: UserId)
    ensures var once := Cd(cog, svc, user, ".").0;
      Cd(once, svc, user, ".").0 == once
  {
    if cog.authenticated {
      var once := Cd(cog, svc, user, ".").0;
      assert once.sessions == cog.sessions[user := Session(Current(cog, user), Current(cog, user))];
      assert once.sessions[user := Session(Current(once, user), Current(once, user))] == once.sessions;
    }
  }

  /** `cd ..` moves to the parent unless the user is at the root path, where
      it answers "You are in the root directory." and stays. */
  lemma CdUp(cog: Cog, svc: Service, user: UserId)
    requires cog.authenticated
    ensures var r := Cd(cog, svc, user, "..");
      && (Current(cog, user) != cog.root ==> Current(r.0, user) == Parent(Current(cog, user)) && !r.1.AtRoot?)
      && (Current(cog, user) == cog.root ==> Current(r.0, user) == cog.root && r.1 == AtRoot)
  {
  }

  /** `cd -` never moves: the previous directory was just overwritten with
      the current one, so both end up equal to the directory the user was in. */
  lemma CdBackStays(cog: Cog, svc: Service, user: UserId)
    requires cog.authenticated
    ensures SessionOf(Cd(cog, svc, user, "-").0, user) == Session(Current(cog, user), Current(cog, user))
  {
  }

  /** Consequently `cd -` right after a successful `cd` stays in the directory
      just entered instead of returning to the one before it. */
  lemma CdBackAfterCd(cog: Cog, svc: Service, user: UserId, path: string)
    requires cog.authenticated
    requires Cd(cog, svc, user, path).1.Changed?
    ensures var first := Cd(cog, svc, user, path);
      Current(Cd(first.0, svc, user, "-").0, user) == first.1.path
  {
    CdBackStays(Cd(cog, svc, user, path).0, svc, user);
  }

  /** `cd name` looks the name up among the folders of the current directory
      (first result only) and, when found, appends the name Drive reports and
      caches the listing of the id Drive reports, `folder[0]["id"]`. */
  lemma CdChild(cog: Cog, svc: Service, user: UserId, name: string)
    requires cog.authenticated && Classify(name) == Child(name)
    requires Resolved(cog.cache, Current(cog, user))
    ensures var hits := Collect(svc.pages(QueryAsWritten(name, Lookup(cog.cache, Current(cog, user)).id.value, false, true).value, 1), false);
      var r := Cd(cog, svc, user, name);
      && (|hits| == 0 <==> r.1 == NotReachable(name))
      && (|hits| == 0 ==> Current(r.0, user) == Current(cog, user))
      && (|hits| > 0 ==> Current(r.0, user) == Current(cog, user) + [hits[0].name])
      && (|hits| > 0 ==> (r.1.Changed? <==> hits[0].id != ""))
      && (|hits| > 0 && hits[0].id != "" ==>
            Lookup(r.0.cache, Current(r.0, user)) == Fresh(hits[0].id, Children(svc, hits[0].id)))
  {
  }

  /** Every working directory lies under the root path. */
  predicate RootPrefixed(cog: Cog) {
    forall u :: u in cog.sessions ==> cog.root <= cog.sessions[u].current && cog.root <= cog.sessions[u].previous
  }

  lemma ParentUnderRoot(root: Path, here: Path)
    requires root <= here && here != root
    ensures root <= Parent(here)
  {
  }

  /** `cd` keeps every session under the root, whatever Drive answers. */
  lemma CdKeepsRootPrefixed(cog: Cog, svc: Service, user: UserId, path: string)
    requires RootPrefixed(cog)
    ensures RootPrefixed(Cd(cog, svc, user, path).0)
  {
    var r := Cd(cog, svc, user, path);
    if cog.authenticated {
      var here := Current(cog, user);
      assert cog.root <= here;
      var s := SessionOf(r.0, user);
      assert cog.root <= s.current by {
        match Classify(path)
        case Up =>
          if here != cog.root {
            ParentUnderRoot(cog.root, here);
          }
        case _ =>
      }
      forall u | u in r.0.sessions
        ensures cog.root <= r.0.sessions[u].current && cog.root <= r.0.sessions[u].previous
      {
        if u != user {
          assert SessionOf(r.0, u) == SessionOf(cog, u);
        } else {
          assert r.0.sessions[u] == s;
        }
      }
    }
  }

  /** The path and every ancestor of it down to the root resolve to a folder
      id in the cache. */
  predicate Reachable(cog: Cog, p: Path) {
    cog.root <= p && forall k :: |cog.root| <= k <= |p| ==> Resolved(cog.cache, p[..k])
  }

  /** The invariant under which no command of the cog raises: once
      authenticated, the root and every directory any session can name
      resolve; before that, nobody has a session. */
  predicate Resolvable(cog: Cog) {
    if cog.authenticated then
      Resolved(cog.cache, cog.root)
      && forall u :: u in cog.sessions ==> Reachable(cog, cog.sessions[u].current) && Reachable(cog, cog.sessions[u].previous)
    else cog.sessions == map[]
  }

  lemma SessionReachable(cog: Cog, user: UserId)
    requires cog.authenticated && Resolvable(cog)
    ensures Reachable(cog, Current(cog, user)) && Reachable(cog, SessionOf(cog, user).previous)
  {
    if user !in cog.sessions {
      assert cog.root[..|cog.root|] == cog.root;
    }
  }

  /** Writing a resolved entry keeps every path reachable. */
  lemma ReachableAfterWrite(cog: Cog, target: Path, e: Entry, p: Path)
    requires e.id.Some? && e.id.value != ""
    requires Reachable(cog, p)
    ensures Reachable(cog.(cache := cog.cache[target := e]), p)
  {
    forall k | |cog.root| <= k <= |p|
      ensures Resolved(cog.cache[target := e], p[..k])
    {
      ResolvedGrows(cog.cache, target, e, p[..k]);
    }
  }

  /** A resolved entry written into a resolvable cog whose sessions the write
      does not disturb keeps it resolvable. */
  lemma ResolvableAfterWrite(cog: Cog, target: Path, e: Entry)
    requires cog.authenticated && Resolvable(cog)
    requires e.id.Some? && e.id.value != ""
    ensures Resolvable(cog.(cache := cog.cache[target := e]))
  {
    var c := cog.(cache := cog.cache[target := e]);
    ResolvedGrows(cog.cache, target, e, cog.root);
    forall u | u in c.sessions
      ensures Reachable(c, c.sessions[u].current) && Reachable(c, c.sessions[u].previous)
    {
      ReachableAfterWrite(cog, target, e, cog.sessions[u].current);
      ReachableAfterWrite(cog, target, e, cog.sessions[u].previous);
    }
  }

  /** Entering a resolved folder whose ancestors resolve keeps the cog
      resolvable and succeeds. */
  lemma EnterKeepsResolvable(cog: Cog, svc: Service, user: UserId, target: Path, id: string)
    requires cog.authenticated && Resolvable(cog)
    requires id != ""
    requires cog.root <= target
    requires forall k :: |cog.root| <= k < |target| ==> Resolved(cog.cache, target[..k])
    ensures Resolvable(Enter(cog, svc, user, target, Some(id)).0)
    ensures Enter(cog, svc, user, target, Some(id)).1 == Changed(target)
  {
    var r := Enter(cog, svc, user, target, Some(id));
    var e := Fresh(id, Children(svc, id));
    var written := cog.(cache := cog.cache[target := e]);
    SessionReachable(cog, user);
    ResolvableAfterWrite(cog, target, e);
    ReachableAfterWrite(cog, target, e, SessionOf(cog, user).previous);
    assert Reachable(written, target) by {
      forall k | |cog.root| <= k <= |target|
        ensures Resolved(written.cache, target[..k])
      {
        if k < |target| {
          ResolvedGrows(cog.cache, target, e, target[..k]);
        } else {
          assert target[..k] == target;
        }
      }
    }
    assert r.0 == written.(sessions := cog.sessions[user := SessionOf(cog, user).(current := target)], known := r.0.known);
  }

  /** Every id in a listing Drive returns is non-empty when Drive never hands
      out empty ids. */
  lemma FoundIdNonEmpty(svc: Service, q: string, n: int, recursive: bool, j: nat)
    requires NonEmptyIds(svc)
    requires j < |Collect(svc.pages(q, n), recursive)|
    ensures Collect(svc.pages(q, n), recursive)[j].id != ""
  {
    CollectFromPages(svc.pages(q, n), recursive, j);
  }

  /** The ancestors of a reachable path's child resolve. */
  lemma ChildAncestors(cog: Cog, here: Path, name: string)
    requires Reachable(cog, here)
    ensures cog.root <= here + [name]
    ensures forall k :: |cog.root| <= k < |here + [name]| ==> Resolved(cog.cache, (here + [name])[..k])
  {
    forall k | |cog.root| <= k < |here + [name]|
      ensures Resolved(cog.cache, (here + [name])[..k])
    {
      assert (here + [name])[..k] == here[..k];
    }
  }

  /** The ancestors of a reachable path's parent resolve, and so does the
      parent itself. */
  lemma ParentAncestors(cog: Cog, here: Path)
    requires Reachable(cog, here) && here != cog.root
    ensures cog.root <= Parent(here)
    ensures Resolved(cog.cache, Parent(here))
    ensures forall k :: |cog.root| <= k < |Parent(here)| ==> Resolved(cog.cache, Parent(here)[..k])
  {
    assert here[..|here| - 1] == Parent(here);
    forall k | |cog.root| <= k < |Parent(here)|
      ensures Resolved(cog.cache, Parent(here)[..k])
    {
      assert Parent(here)[..k] == here[..k];
    }
  }

  /** The ancestors of a reachable path resolve. */
  lemma OwnAncestors(cog: Cog, p: Path)
    requires Reachable(cog, p)
    ensures Resolved(cog.cache, p)
    ensures forall k :: |cog.root| <= k < |p| ==> Resolved(cog.cache, p[..k])
  {
    assert p[..|p|] == p;
  }

  /** `cd` keeps the cog resolvable and, as long as Drive hands out non-empty
      ids, never raises. */
  lemma CdKeepsResolvable(cog: Cog, svc: Service, user: UserId, path: string)
    requires Resolvable(cog) && NonEmptyIds(svc)
    ensures Resolvable(Cd(cog, svc, user, path).0)
    ensures !Cd(cog, svc, user, path).1.Raised?
  {
    if cog.authenticated {
      var here := Current(cog, user);
      var marked := cog.(sessions := cog.sessions[user := Session(here, here)]);
      SessionReachable(cog, user);
      assert Reachable(marked, here);
      assert Resolvable(marked);
      match Classify(path)
      case Home =>
        assert cog.root[..|cog.root|] == cog.root;
        EnterKeepsResolvable(marked, svc, user, cog.root, Lookup(cog.cache, cog.root).id.value);
      case Here =>
      case Up =>
        if here != cog.root {
          ParentAncestors(marked, here);
          EnterKeepsResolvable(marked, svc, user, Parent(here), Lookup(cog.cache, Parent(here)).id.value);
        }
      case Back =>
        OwnAncestors(marked, here);
        EnterKeepsResolvable(marked, svc, user, here, Lookup(cog.cache, here).id.value);
      case Child(name) =>
        OwnAncestors(marked, here);
        var id := Lookup(cog.cache, here).id;
        var found := Search(svc, cog.known, name, id, 1, false, true, false);
        assert found.Success?;
        if |found.value.items| > 0 {
          var q := QueryAsWritten(name, id.value, false, true).value;
          FoundIdNonEmpty(svc, q, 1, false, 0);
          var m := marked.(known := found.value.known);
          ChildAncestors(m, here, found.value.items[0].name);
          EnterKeepsResolvable(m, svc, user, here + [found.value.items[0].name], found.value.items[0].id);
        }
    }
  }
}

=== FILE: query.dfy ===
/** The Drive search query that `DriveAPI.search` assembles
    (discord_drive/_drive.py, lines 192-217), and the rule that refuses a
    search with neither a name nor a parent. */
module Query {
  import opened Wrappers

  const FolderType := "application/vnd.google-apps.folder"
  const ShortcutType := "application/vnd.google-apps.shortcut"

  /** Why a call into `DriveAPI` raises before contacting Drive. */
  datatype ApiError =
    | NoneArgument   // `_input_validator` asserts that no argument is None
    | BothEmpty      // `search` raises "Both parameters cannot be empty."
    | UnknownType    // `upload_from_discord`: `'zip' not in None` raises `TypeError`
    | MissingSize    // `int(record['size'])` on a record without a size raises `KeyError`

  function NameClause(name: string): string {
    if name == "" then "" else " and name = '" + name + "'"
  }

  function ParentClause(parent: string): string {
    if parent == "" then "" else " and '" + parent + "' in parents"
  }

  /** The mime-type test of a search restricted to files (not a folder) or
      to folders. */
  function MimeTest(files: bool): string {
    if files then "mimeType!='" + FolderType + "'" else "mimeType='" + FolderType + "'"
  }

  /** The mime-type clause exactly as the source spells it: unlike the other
      clauses it has no leading space. */
  function MimeClauseAsWritten(files: bool, folders: bool): string {
    if files && folders then "" else "and " + MimeTest(files)
  }

  const ShortcutCondition := "mimeType!='" + ShortcutType + "'"
  const ShortcutClause := " and " + ShortcutCondition

  /** A non-empty name clause and a non-empty parent clause never coincide:
      they differ at their sixth character. */
  lemma ClausesDiffer(name: string, parent: string)
    requires name != "" && parent != ""
    ensures NameClause(name) != ParentClause(parent)
  {
    assert NameClause(name)[5] == 'n';
    assert ParentClause(parent)[5] == '\'';
  }

  /** The refusal rule `nameScript == parentScript`: it fires exactly when
      both the name and the parent are empty. */
  lemma RefusedIffBothEmpty(name: string, parent: string)
    ensures NameClause(name) == ParentClause(parent) <==> name == "" && parent == ""
  {
    if name != "" && parent != "" {
      ClausesDiffer(name, parent);
    }
  }

  /** The query as the source builds it. */
  function QueryAsWritten(name: string, parent: string, files: bool, folders: bool): (r: Result<string, ApiError>)
    ensures r.Failure? <==> name == "" && parent == ""
    ensures r.Failure? ==> r.error == BothEmpty
  {
    RefusedIffBothEmpty(name, parent);
    if NameClause(name) == ParentClause(parent) then Failure(BothEmpty)
    else Success("trashed = false" + MimeClauseAsWritten(files, folders) + NameClause(name)
                 + ParentClause(parent) + ShortcutClause)
  }

  /** The query's conditions as a list, in the order the source emits them;
      the reference the corrected query is proved against. */
  function MimeCondition(files: bool, folders: bool): seq<string> {
    if files && folders then [] else [MimeTest(files)]
  }

  function NameCondition(name: string): seq<string> {
    if name == "" then [] else ["name = '" + name + "'"]
  }

  function ParentCondition(parent: string): seq<string> {
    if parent == "" then [] else ["'" + parent + "' in parents"]
  }

  function Conditions(name: string, parent: string, files: bool, folders: bool): seq<string> {
    ["trashed = false"] + MimeCondition(files, folders) + NameCondition(name)
    + ParentCondition(parent) + [ShortcutCondition]
  }

  /** `c1 and c2 and ... and cn`. */
  function JoinAnd(cs: seq<string>): string
    requires |cs| > 0
  {
    if |cs| == 1 then cs[0] else JoinAnd(cs[..|cs| - 1]) + " and " + cs[|cs| - 1]
  }

  /** The clause text for zero or one condition. */
  function Clause(opt: seq<string>): string {
    if opt == [] then "" else " and " + opt[0]
  }

  /** Appending zero or one condition appends its clause. */
  lemma JoinAndOptional(cs: seq<string>, opt: seq<string>)
    requires |cs| > 0 && |opt| <= 1
    ensures JoinAnd(cs + opt) == JoinAnd(cs) + Clause(opt)
  {
    if opt != [] {
      assert (cs + opt)[..|cs + opt| - 1] == cs;
    } else {
      assert cs + opt == cs;
    }
  }

  /** The mime-type clause with the separating space the other clauses have. */
  function MimeClause(files: bool, folders: bool): string {
    if files && folders then "" else " " + MimeClauseAsWritten(files, folders)
  }

  /** Each clause of the corrected query is the clause of its condition. */
  lemma MimeClauseIsCondition(files: bool, folders: bool)
    ensures MimeClause(files, folders) == Clause(MimeCondition(files, folders))
  {
    if !(files && folders) {
      assert " " + "and " + MimeTest(files) == " " + ("and " + MimeTest(files));
    }
  }

  lemma NameClauseIsCondition(name: string)
    ensures NameClause(name) == Clause(NameCondition(name))
  {
    if name != "" {
      assert " and " + "name = '" + name == " and " + ("name = '" + name);
      assert " and " + "name = '" + name + "'" == " and " + ("name = '" + name + "'");
    }
  }

  lemma ParentClauseIsCondition(parent: string)
    ensures ParentClause(parent) == Clause(ParentCondition(parent))
  {
    if parent != "" {
      assert " and " + "'" + parent == " and " + ("'" + parent);
      assert " and " + "'" + parent + "' in parents" == " and " + ("'" + parent + "' in parents");
    }
  }

  /** The corrected query text is the ` and `-conjunction of the conditions. */
  lemma CorrectedIsConjunction(name: string, parent: string, files: bool, folders: bool)
    ensures "trashed = false" + MimeClause(files, folders) + NameClause(name) + ParentClause(parent) + ShortcutClause
            == JoinAnd(Conditions(name, parent, files, folders))
  {
    var c0 := ["trashed = false"];
    var m := MimeCondition(files, folders);
    var n := NameCondition(name);
    var p := ParentCondition(parent);
    MimeClauseIsCondition(files, folders);
    NameClauseIsCondition(name);
    ParentClauseIsCondition(parent);
    JoinAndOptional(c0, m);
    JoinAndOptional(c0 + m, n);
    JoinAndOptional(c0 + m + n, p);
    JoinAndOptional(c0 + m + n + p, [ShortcutCondition]);
  }

  /** The query with the mime clause separated like every other clause. It is
      refused exactly when both name and parent are empty, and otherwise it is
      the ` and `-conjunction of the conditions, in order. */
  function BuildQuery(name: string, parent: string, files: bool, folders: bool): (r: Result<string, ApiError>)
    ensures r.Failure? <==> name == "" && parent == ""
    ensures r.Failure? ==> r.error == BothEmpty
    ensures r.Success? ==> r.value == JoinAnd(Conditions(name, parent, files, folders))
  {
    RefusedIffBothEmpty(name, parent);
    CorrectedIsConjunction(name, parent, files, folders);
    if NameClause(name) == ParentClause(parent) then Failure(BothEmpty)
    else Success("trashed = false" + MimeClause(files, folders) + NameClause(name)
                 + ParentClause(parent) + ShortcutClause)
  }

  /** Splits an assembled query into its head, mime clause and the rest. */
  lemma Regroup(head: string, mime: string, name: string, parent: string, tail: string)
    ensures head + mime + name + parent + tail == head + mime + (name + parent + tail)
  {
    assert head + mime + name + parent == head + mime + (name + parent);
    assert head + mime + name + parent + tail == head + mime + (name + parent + tail);
  }

  /** Both restricted spellings of the mime clause begin with `and`. */
  lemma MimeAsWrittenStartsWithAnd(files: bool, folders: bool)
    requires !(files && folders)
    ensures |MimeClauseAsWritten(files, folders)| >= 3 && MimeClauseAsWritten(files, folders)[..3] == "and"
  {
    assert ("and " + MimeTest(files))[..3] == "and "[..3];
  }

  lemma GluedHead(head: string, m: string, rest: string)
    requires head == "trashed = false"
    requires |m| >= 3 && m[..3] == "and"
    ensures (head + m + rest)[..18] == "trashed = falseand"
  {
    assert (head + m + rest)[..18] == (head + m)[..18];
    assert (head + m)[..18] == head + m[..3];
  }

  /** The query as written glues its mime clause onto `false`, producing
      `trashed = falseand mimeType...`, whenever the search is restricted to
      files only or to folders only; it is the corrected query otherwise. */
  lemma QueryAsWrittenGluesMime(name: string, parent: string, files: bool, folders: bool)
    requires name != "" || parent != ""
    ensures files && folders ==> QueryAsWritten(name, parent, files, folders) == BuildQuery(name, parent, files, folders)
    ensures !(files && folders) ==> QueryAsWritten(name, parent, files, folders).value[..18] == "trashed = falseand"
    ensures !(files && folders) ==> QueryAsWritten(name, parent, files, folders) != BuildQuery(name, parent, files, folders)
  {
    var head := "trashed = false";
    var rest := NameClause(name) + ParentClause(parent) + ShortcutClause;
    var m := MimeClauseAsWritten(files, folders);
    Regroup(head, m, NameClause(name), ParentClause(parent), ShortcutClause);
    Regroup(head, MimeClause(files, folders), NameClause(name), ParentClause(parent), ShortcutClause);
    assert QueryAsWritten(name, parent, files, folders).value == head + m + rest;
    assert BuildQuery(name, parent, files, folders).value == head + MimeClause(files, folders) + rest;
    if !(files && folders) {
      MimeAsWrittenStartsWithAnd(files, folders);
      GluedHead(head, m, rest);
      assert (head + (" " + m) + rest)[15] == ' ';
    }
  }

  /** Which mime restriction a search carries: none when both kinds are
      wanted, "not a folder" when only files are, and "folders only" in every
      other case, including when neither is wanted. */
  lemma MimeRestriction(name: string, parent: string, files: bool, folders: bool)
    ensures var cs := Conditions(name, parent, files, folders);
      && (files && folders ==> cs[1] != "mimeType!='" + FolderType + "'" && cs[1] != "mimeType='" + FolderType + "'")
      && (files && !folders ==> cs[1] == "mimeType!='" + FolderType + "'")
      && (!files ==> cs[1] == "mimeType='" + FolderType + "'")
  {
    var cs := Conditions(name, parent, files, folders);
    if files && folders {
      var c := cs[1];
      if name != "" {
        assert c[0] == 'n';
      } else if parent != "" {
        assert c[0] == '\'';
      } else {
        assert c[8] == '!' && c[11 + 28] == 's';
      }
    }
  }
}

=== FILE: sharing.dfy ===
/** `/download` and `/share` (discord_drive/_discord_drive.py): look the file
    up with `export`, hand over the file or the link, and once a finite
    timeout has passed revoke the link by slicing the file id back out of the
    returned text. */
module Sharing {
  import opened Wrappers
  import opened Query
  import opened Text
  import opened Links
  import opened Drive
  import opened Cache
  import opened Navigation

  /** The Python value `export` returns: a `str` or a `discord.File`. */
  datatype Returned = Message(text: string) | FileObject(fileId: string)

  const NotFoundMessage := "File not found."

  /** The outcome of `export` as the value the cog receives. */
  function AsReturned(o: Exported): (v: Returned)
    ensures v.FileObject? <==> o.Attached?
    ensures o.Attached? ==> v.fileId == o.fileId
    ensures o.Shared? ==> v == Message(o.link)
    ensures o.NotFound? ==> v == Message(NotFoundMessage)
  {
    match o
    case NotFound => Message(NotFoundMessage)
    case Shared(link, _) => Message(link)
    case Attached(id) => FileObject(id)
  }

  /** The revocation as written: every `str` result is taken to be a link,
      and once a finite timeout has passed the id is sliced out of it; the
      slice raises `ValueError` when the text lacks `file/d/`. */
  function RevokedAsWritten(v: Returned, finite: bool): (r: Result<Option<string>, ValueError>)
    ensures v.FileObject? || !finite ==> r == Success(None)
    ensures v.Message? && finite ==> (r.Failure? <==> !Contains(v.text, Marker))
    ensures r.Success? && r.value.Some? ==> Success(r.value.value) == LinkFileId(v.text)
  {
    match v
    case FileObject(_) => Success(None)
    case Message(text) =>
      if !finite then Success(None)
      else match LinkFileId(text)
        case Failure(e) => Failure(e)
        case Success(id) => Success(Some(id))
  }

  /** "File not found." has no '/', so it cannot contain `file/d/`: when a
      download or share of a missing file uses a finite timeout, the cog raises
      `ValueError` after the timeout instead of revoking anything. */
  lemma NotFoundRaisesAfterTimeout()
    ensures RevokedAsWritten(AsReturned(NotFound), true) == Failure(MarkerMissing)
  {
    assert Marker[4] == '/';
    assert forall i :: 0 <= i < |NotFoundMessage| ==> NotFoundMessage[i] != '/';
    MissingCharNoOccurrence(NotFoundMessage, Marker, 4);
  }

  /** The intended revocation: only a share link is revoked, and by the id it
      was granted for. */
  function Revoked(o: Exported, finite: bool): (r: Option<string>)
    ensures r.Some? <==> finite && o.Shared?
    ensures r.Some? ==> r.value == o.fileId
  {
    if finite && o.Shared? then Some(o.fileId) else None
  }

  /** On every outcome other than "not found", the slicing as written
      revokes exactly what the intended revocation does, provided the link
      was made for a name without `file/d/`. */
  lemma RevokedAgreesOnFoundFiles(o: Exported, fileName: string, finite: bool)
    requires !o.NotFound?
    requires o.Shared? ==> o.link == ShareLink(fileName, o.fileId)
    requires !Contains(fileName, Marker)
    ensures RevokedAsWritten(AsReturned(o), finite) == Success(Revoked(o, finite))
  {
    if o.Shared? {
      LinkRoundTrip(fileName, o.fileId);
    }
  }

  /** Over everything `export` can return for a name, the slicing as written
      raises exactly for "File not found." after a finite timeout; a share
      link of a name without `file/d/` yields the id it was granted for. */
  lemma RaisesOnlyWhenNotFound(o: Exported, fileName: string, finite: bool)
    requires o.Shared? ==> o.link == ShareLink(fileName, o.fileId)
    ensures RevokedAsWritten(AsReturned(o), finite).Failure? <==> finite && o.NotFound?
    ensures RevokedAsWritten(AsReturned(o), finite).Failure? ==>
      RevokedAsWritten(AsReturned(o), finite).error == MarkerMissing
    ensures o.Shared? && finite && !Contains(fileName, Marker) ==>
      RevokedAsWritten(AsReturned(o), finite) == Success(Some(o.fileId))
  {
    if o.NotFound? && finite {
      NotFoundRaisesAfterTimeout();
    }
    if o.Shared? && !Contains(fileName, Marker) {
      LinkRoundTrip(fileName, o.fileId);
    }
  }

  /** What `float(timeout)` makes of the free-text timeout, by what the
      command does with it afterwards. */
  datatype Timeout =
    | Malformed   // not a number: `float` raises `ValueError` before anything else
    | Undatable   // nan or -inf: `int(time() + timeout)` raises once `export` has answered
    | Finite      // a number: what is handed over expires, and a link is then revoked
    | Never       // inf: nothing expires

  /** The current folder id is set and `export`'s search is not refused. */
  predicate Searches(cog: Cog, user: UserId, fileName: string) {
    var id := Lookup(cog.cache, Current(cog, user)).id;
    id.Some? && (fileName != "" || DefaultParent(id.value, cog.rootName) != "")
  }

  /** The first page of `export`'s search in the user's current folder. */
  function MatchesHere(cog: Cog, svc: Service, user: UserId, fileName: string): seq<Item>
    requires Searches(cog, user, fileName)
  {
    ExportMatches(svc, fileName, Lookup(cog.cache, Current(cog, user)).id.value, cog.rootName)
  }

  /** `int(file[0]['size'])` would raise: the first match has no size. */
  predicate SizelessFirst(cog: Cog, svc: Service, user: UserId, fileName: string)
    requires Searches(cog, user, fileName)
  {
    var m := MatchesHere(cog, svc, user, fileName);
    |m| > 0 && m[0].size.None?
  }

  /** `/download name` and `/share name user` alike: parse the timeout, look
      `name` up in the current directory, hand over the file or the returned
      text, and once a finite timeout has passed revoke sharing of the id
      sliced out of that text. The slice runs on "File not found." too, and
      raises there. Only the folder-name map changes, and only once the
      search has run, even if `export` or the timeout raises after it. */
  function Deliver(cog: Cog, svc: Service, user: UserId, fileName: string, limit: int, timeout: Timeout)
    : (r: (Cog, Reply))
    ensures !cog.authenticated ==> r == (cog, NotAuthenticated)
    ensures cog.authenticated && timeout.Malformed? ==> r == (cog, TimeoutRaised)
    ensures r.0 == cog.(known := r.0.known)
    ensures cog.authenticated && !timeout.Malformed? && Searches(cog, user, fileName) ==>
      r.0.known == UpdateFolders(cog.known, MatchesHere(cog, svc, user, fileName))
    ensures !(cog.authenticated && !timeout.Malformed? && Searches(cog, user, fileName)) ==> r.0 == cog
    ensures (cog.authenticated && !timeout.Malformed? && Searches(cog, user, fileName)
             && SizelessFirst(cog, svc, user, fileName)) ==> r.1 == Raised(MissingSize)
    ensures (r.1.Delivered? || r.1.RevokeRaised?) <==>
      && cog.authenticated && (timeout.Finite? || timeout.Never?)
      && Searches(cog, user, fileName) && !SizelessFirst(cog, svc, user, fileName)
    ensures r.1 == TimeoutRaised <==>
      && cog.authenticated
      && (timeout.Malformed?
          || (timeout.Undatable? && Searches(cog, user, fileName) && !SizelessFirst(cog, svc, user, fileName)))
    ensures r.1.Delivered? || r.1.RevokeRaised? ==>
      var matches := MatchesHere(cog, svc, user, fileName);
      && (r.1.outcome.NotFound? <==> |matches| == 0)
      && (r.1.outcome.Shared? <==> |matches| > 0 && matches[0].size.value >= limit)
      && (!r.1.outcome.NotFound? ==> r.1.outcome.fileId == matches[0].id)
    ensures r.1.RevokeRaised? <==> (r.1.Delivered? || r.1.RevokeRaised?) && timeout.Finite? && r.1.outcome.NotFound?
    ensures r.1.RevokeRaised? ==> r.1.sliceError == MarkerMissing
    ensures r.1.Delivered? ==> (r.1.revoked.Some? <==> timeout.Finite? && r.1.outcome.Shared?)
    ensures r.1.Delivered? && r.1.revoked.Some? ==> Success(r.1.revoked.value) == LinkFileId(r.1.outcome.link)
    ensures r.1.Delivered? && r.1.revoked.Some? && !Contains(fileName, Marker) ==>
      r.1.revoked.value == r.1.outcome.fileId
    ensures (r.1.Delivered? || r.1.RevokeRaised?) && r.1.outcome.Shared? ==>
      r.1.outcome.link == ShareLink(fileName, r.1.outcome.fileId)
  {
    if !cog.authenticated then (cog, NotAuthenticated)
    else if timeout.Malformed? then (cog, TimeoutRaised)
    else
      var id := Lookup(cog.cache, Current(cog, user)).id;
      match Export(svc, cog.known, fileName, id, limit, cog.rootName)
      case Failure(e) => (cog.(known := e.known), Raised(e.error))
      case Success(x) =>
        var c := cog.(known := x.known);
        if timeout.Undatable? then (c, TimeoutRaised)
        else
          var finite := timeout.Finite?;
          RaisesOnlyWhenNotFound(x.outcome, fileName, finite);
          match RevokedAsWritten(AsReturned(x.outcome), finite)
          case Failure(e) => (c, RevokeRaised(x.outcome, e))
          case Success(revoked) => (c, Delivered(x.outcome, revoked))
  }

  /** A download or share of a missing file with a finite timeout answers
      "File not found." and then raises `ValueError` instead of revoking;
      with an infinite timeout it answers and stops; with nan or -inf it
      raises before answering. */
  lemma MissingFileRaises(cog: Cog, svc: Service, user: UserId, fileName: string, limit: int, timeout: Timeout)
    requires cog.authenticated && Resolved(cog.cache, Current(cog, user))
    requires |ExportMatches(svc, fileName, Lookup(cog.cache, Current(cog, user)).id.value, cog.rootName)| == 0
    ensures timeout.Finite? ==> Deliver(cog, svc, user, fileName, limit, timeout).1 == RevokeRaised(NotFound, MarkerMissing)
    ensures timeout.Never? ==> Deliver(cog, svc, user, fileName, limit, timeout).1 == Delivered(NotFound, None)
    ensures timeout.Undatable? ==> Deliver(cog, svc, user, fileName, limit, timeout).1 == TimeoutRaised
  {
  }

  /** For a file that was found, delivering by the slicing as written
      revokes exactly what the intended rule `Revoked` does, provided the
      name lacks `file/d/`: the two differ only on missing files. */
  lemma DeliverRevokesLinkedId(cog: Cog, svc: Service, user: UserId, fileName: string, limit: int, timeout: Timeout)
    requires !Contains(fileName, Marker)
    requires Deliver(cog, svc, user, fileName, limit, timeout).1.Delivered?
    requires !Deliver(cog, svc, user, fileName, limit, timeout).1.outcome.NotFound?
    ensures var d := Deliver(cog, svc, user, fileName, limit, timeout).1;
      d.revoked == Revoked(d.outcome, timeout.Finite?)
  {
    var d := Deliver(cog, svc, user, fileName, limit, timeout).1;
    RevokedAgreesOnFoundFiles(d.outcome, fileName, timeout.Finite?);
  }
}

=== FILE: text.dfy ===
/** The handful of Python string operations the original code relies on:
    `str.index`, `str.rsplit(sep, 1)`, `str.split(sep)[0]` and slicing with
    negative bounds. Strings are `seq<char>`. */
module Text {
  import opened Wrappers

  /** `sub` occurs in `s` starting at index `i`. */
  predicate OccursAt(s: string, sub: string, i: nat) {
    i + |sub| <= |s| && s[i..i + |sub|] == sub
  }

  /** Python's `sub in s`. */
  predicate Contains(s: string, sub: string) {
    exists i: nat :: i <= |s| && OccursAt(s, sub, i)
  }

  /** The first occurrence of `sub` in `s` at or after `from`. */
  function FindFrom(s: string, sub: string, from: nat): (r: Option<nat>)
    decreases |s| + 1 - from
    ensures r.Some? ==> from <= r.value && OccursAt(s, sub, r.value)
    ensures r.Some? ==> forall j: nat :: from <= j < r.value ==> !OccursAt(s, sub, j)
    ensures r.None? ==> forall j: nat :: from <= j ==> !OccursAt(s, sub, j)
  {
    if from + |sub| > |s| then None
    else if s[from..from + |sub|] == sub then Some(from)
    else FindFrom(s, sub, from + 1)
  }

  /** Python's `s.index(sub)`, with `None` standing for the `ValueError`. */
  function Find(s: string, sub: string): (r: Option<nat>)
    ensures r.None? <==> !Contains(s, sub)
    ensures r.Some? ==> OccursAt(s, sub, r.value)
    ensures r.Some? ==> forall j: nat :: j < r.value ==> !OccursAt(s, sub, j)
  {
    FindFrom(s, sub, 0)
  }

  /** An occurrence inside a prefix of `s` is an occurrence in `s`. */
  lemma OccursInPrefix(s: string, sub: string, n: nat, j: nat)
    requires n <= |s|
    requires OccursAt(s[..n], sub, j)
    ensures OccursAt(s, sub, j)
  {
    assert s[..n][j..j + |sub|] == s[j..j + |sub|];
  }

  /** A string lacking some character of `sub` cannot contain `sub`. */
  lemma MissingCharNoOccurrence(s: string, sub: string, k: nat)
    requires k < |sub| && sub[k] !in s
    ensures !Contains(s, sub)
  {
  }

  /** The index of the last `c` in `s`. */
  function LastIndexOf(s: string, c: char): (r: Option<nat>)
    ensures r.None? <==> c !in s
    ensures r.Some? ==> r.value < |s| && s[r.value] == c && c !in s[r.value + 1..]
  {
    if |s| == 0 then None
    else if s[|s| - 1] == c then Some(|s| - 1)
    else
      var r := LastIndexOf(s[..|s| - 1], c);
      assert r.Some? ==> s[r.value + 1..] == s[..|s| - 1][r.value + 1..] + [s[|s| - 1]];
      r
  }

  /** Python's `s.rsplit(c, 1)[1]`: the text after the last `c`; `None`
      stands for the `IndexError` raised when `c` does not occur. */
  function AfterLast(s: string, c: char): (r: Option<string>)
    ensures r.None? <==> c !in s
    ensures r.Some? ==> |r.value| < |s| && s[|s| - |r.value| - 1] == c
    ensures r.Some? ==> s[|s| - |r.value|..] == r.value && c !in r.value
  {
    match LastIndexOf(s, c)
    case None => None
    case Some(k) => Some(s[k + 1..])
  }

  /** Python's `s.rsplit(c, 1)[0]`: the text before the last `c`, or all of
      `s` when `c` does not occur. */
  function BeforeLast(s: string, c: char): (r: string)
    ensures c !in s ==> r == s
    ensures c in s ==> |r| < |s| && r == s[..|r|] && s[|r|] == c && c !in s[|r| + 1..]
  {
    match LastIndexOf(s, c)
    case None => s
    case Some(k) => s[..k]
  }

  /** Python's `s.split(sep)[0]` for a non-empty separator: the text before the
      first `sep`, or all of `s` when `sep` does not occur. */
  function BeforeFirst(s: string, sep: string): (r: string)
    requires sep != ""
    ensures r <= s && !Contains(r, sep)
    ensures r == s || OccursAt(s, sep, |r|)
    ensures forall j: nat :: j < |r| ==> !OccursAt(s, sep, j)
  {
    match Find(s, sep)
    case None => s
    case Some(i) =>
      var r := s[..i];
      assert !Contains(r, sep) by {
        forall j: nat | OccursAt(r, sep, j)
          ensures false
        {
          OccursInPrefix(s, sep, i, j);
        }
      }
      r
  }

  /** Clamps a Python slice bound (possibly negative) into `0..n`. */
  function Clamp(i: int, n: nat): (r: nat)
    ensures r <= n
  {
    if i < 0 then (if i + n < 0 then 0 else i + n)
    else if i > n then n
    else i
  }

  /** Python's `s[start:stop]`: negative bounds count from the end, bounds out
      of range are clamped, and a crossed pair gives the empty string. */
  function Slice(s: string, start: int, stop: int): (r: string)
    ensures |r| <= |s|
    ensures 0 <= start <= stop <= |s| ==> r == s[start..stop]
    ensures 0 <= start && stop < 0 && start <= |s| + stop ==> r == s[start..|s| + stop]
    ensures 0 <= start && stop < 0 && |s| + stop < start ==> r == ""
  {
    var a := Clamp(start, |s|);
    var b := Clamp(stop, |s|);
    if a < b then s[a..b] else ""
  }
}

=== FILE: wrappers.dfy ===
/** Failure-carrying datatypes shared by every module of the model. A Python
    exception raised by the original code becomes a `Failure` here. */
module Wrappers {

  datatype Option<+T> = None | Some(value: T)

  datatype Result<+T, +E> = Success(value: T) | Failure(error: E) {

    predicate IsFailure() {
      Failure?
    }

    function PropagateFailure<U>(): Result<U, E>
      requires Failure?
    {
      Failure(error)
    }

    function Extract(): T
      requires Success?
    {
      value
    }
  }

  function Min(a: int, b: int): int {
    if a <= b then a else b
  }
}
